=== FILE: README.md ===
# plugin-manager, modelled in Dafny

A Dafny model of the SillyTavern plugin manager: the server-side engine in
`index.js` that installs, updates, deletes and lists git-hosted plugins under
the `plugins/` directory, and the decisions the browser script
`public/script.js` makes when it renders the catalog and filters it.

The plugins directory is an abstract map from entry names to entries
(`World.World`). A directory entry records only what the engine ever looks at:
- whether `.git` is a directory, a file or missing;
- whether `package.json` is missing, unparsable or parsed, with the fields that are read;
- which module paths `require` can load, and the `info` descriptor each one exports;
- whether the directory is reached through a symbolic link.

Nothing is executed. What `child_process.exec` reported for a command is an
input (`Process.Exec`). It passes through `Process.RunCommand`, which models
the runner's never-throwing result.

Every lifecycle operation returns a `Lifecycle.Step`, which holds:
- the outcome object the HTTP layer forwards, with the exact message strings;
- the directory map afterwards;
- the effects performed: commands run and entries removed.

So "runs no command" and "changes nothing else" are statements about the
model's results.

Modules, one per concern of the source:

| module | file | models |
|---|---|---|
| `Wrappers` | wrappers.dfy | optional values (`null` / `undefined`) |
| `Strings` | strings.dfy | `includes`, `endsWith`, `lastIndexOf`, `trim`, string `\|\|` |
| `Process` | process.dfy | `runCommand` and the commands the engine issues |
| `World` | world.dfy | the plugins directory, `isGitRepository`, the listing filter |
| `Naming` | naming.dfy | `path.basename(url, '.git')` and the directory-name derivation of `installPlugin` |
| `Metadata` | metadata.dfy | `getPluginMetadata` |
| `Lifecycle` | lifecycle.dfy | `installPlugin`, `updatePlugin`, `deletePlugin`, `installDependencies` |
| `Catalog` | catalog.dfy | `listInstalledPlugins`: probing, record building, sorting |
| `RelativeTime` | timeago.dfy | `timeAgo` |
| `View` | view.dfy | badges and buttons of `renderPluginList`, `filterPlugins` |
| `Scenarios` | scenarios.dfy | behaviour across operations: install or delete, then list |

Sorting by `localeCompare` is a parameter `le` that must be a total preorder.
The order in which `readdir` returns entries is a parameter `order`, which
must enumerate the directory once. `toLowerCase` is an abstract function
`lower`.

## Model

| member | source | states |
|---|---|---|
| `Strings.Or` | index.js:171-175 | `a \|\| b` on strings: `a` when it is non-empty, otherwise `b` |
| `Strings.TrimIsBothEnds` | index.js:155 | `trim()` equals removing the leading white space (`TrimStart`: the result ends the input, every removed character is white space, and it does not start with white space) and then the trailing white space (`TrimEnd`, symmetrically), for every string |
| `Strings.Trim` | index.js:155 | `trim()`: the result is the input with only JavaScript white space before and after it, and it neither starts nor ends with white space itself |
| `Strings.TrimNonEmptyIff` | index.js:160 | `stdout.trim() !== ''` holds exactly when the output has a non-whitespace character |
| `Strings.InfixTransitive` | public/script.js:629 | `includes` is transitive |
| `Strings.InfixOfConcat` | public/script.js:288 | text found in either part of a concatenation is found in the whole |
| `Process.RunCommand` | index.js:32-56 | the runner never throws: success exactly when `exec` resolved, with its output; on rejection the error's stdout/stderr, or `''` when missing, plus the error message |
| `Process.Diagnostic` | index.js:220 | the diagnostic kept on a failure is stderr when non-empty, else the error message |
| `Process.SucceededWithOutputIff` | index.js:158-167 | a probe counts exactly when the command succeeded and its trimmed stdout is non-empty |
| `Naming.Basename` | index.js:195 | `path.basename` yields the whole last segment: it ends the input once trailing `/` are dropped, holds no `/`, and is preceded by a `/` unless it is all of the input |
| `Naming.StripExtension` | index.js:195 | the `.git` argument of `path.basename` is cut off exactly when the base ends with it and is not `.git` itself |
| `Naming.DirNameFromUrl` | index.js:193-203 | with the simplified basename stated under Left out, the derived directory name contains neither `/` nor `:`; its value for each URL shape is pinned by the five lemmas that follow |
| `Naming.DirNameOfPathUrl` | index.js:195-199 | `<prefix>/<name>.git` installs into `<name>` |
| `Naming.DirNameOfScpUrl` | index.js:200-203 | `host:<name>.git` installs into `<name>`: the text after the last `:` |
| `Naming.DirNameOfBarePathUrl` | index.js:195-199 | `<prefix>/<name>` without a `.git` suffix installs into `<name>` |
| `Naming.DirNameOfBareScpUrl` | index.js:195-203 | `host:<name>` without a `/` or a `.git` suffix installs into `<name>`: the text after the last `:` |
| `Naming.SamplePluginName` | index.js:193-203 | `https://example.com/group/sample-plugin.git` installs into `sample-plugin` |
| `Naming.DoubledSuffixStrippedTwice` | index.js:195-199 | `<name>.git.git` loses both suffixes: basename strips one, the explicit check the other |
| `Metadata.LoadInfo` | index.js:91-96 | a loadable module yields exactly its `info`; a path that does not load yields none |
| `Metadata.ReadPackageJson` | index.js:84-100 | the manifest is present exactly when `package.json` parses, and a missing or broken file never aborts |
| `Metadata.GetPluginMetadata` | index.js:79-129 | the manifest is returned as read, and any descriptor comes from one of the directory's loadable modules |
| `Metadata.MainDescriptorWins` | index.js:88-97 | a descriptor loaded through `main` wins |
| `Metadata.IndexDescriptorFallback` | index.js:102-111 | without a usable `main`, the descriptor is whatever `index.js` yields |
| `Metadata.MjsNeverConsulted` | index.js:113-125 | the `index.mjs` branch never contributes a descriptor |
| `Lifecycle.Install` | index.js:193-232 | an existing target is refused with no command run and no change. Otherwise exactly one clone runs. Success exactly when the clone succeeded, adding only the new entry and reporting the name and the `package.json` flag. A failed clone keeps the diagnostic and changes nothing. Each outcome is the whole object the code returns, with the absent fields absent |
| `Lifecycle.ClassifyPullFailure` | index.js:249-256 | a merge conflict is recognised exactly when stderr names it; local changes exactly when stderr names them and no conflict; otherwise no error code |
| `Lifecycle.PullFailure` | index.js:248-258 | a failed pull never succeeds; classified failures carry the raw stderr, unclassified ones the stderr-or-message diagnostic |
| `Lifecycle.Update` | index.js:238-266 | a non-checkout is refused with no command run. A failed pull changes nothing. Success exactly when the pull succeeded: exactly `git pull` then `git status` ran, and the outcome is `{success: true, message, needsDependencyInstall}` with the flag from `git status`. No other entry changes and no entry appears or disappears |
| `Lifecycle.Delete` | index.js:272-290 | the corrected `deletePlugin` (see Findings): `plugin-manager` is refused before anything else. A missing entry fails without removal. Success exactly when the entry exists and removal succeeds, removing that entry only. A failed removal reports `删除插件失败` with the removal error as details and nothing else |
| `Lifecycle.DeleteAsWritten` | index.js:272-290 | the code as written: agrees with `Delete` on ordinary names; a name joining to the plugins directory empties it |
| `Lifecycle.DeleteAsWrittenRemovesManager` | index.js:276-285 | as written, deleting `.` succeeds and removes `plugin-manager` |
| `Lifecycle.DeleteNeverRemovesManager` | index.js:275-278 | corrected: no name and no removal result removes or alters `plugin-manager` |
| `Lifecycle.DeleteSelfIgnoresWorld` | index.js:276-278 | the self refusal is the same whatever the directory holds and whatever removal would do |
| `Lifecycle.InstallDependencies` | index.js:296-316 | without `package.json` nothing runs and the refusal explains why. Otherwise exactly `npm install` runs. Success exactly when it succeeded, leaving the plugin directory as the install left it; a refusal or failure changes nothing, and no other entry changes. The failure and success outcomes are the whole objects the code returns |
| `Lifecycle.InstallTwice` | index.js:207-214 | a second install deriving the same name is refused and leaves the first installation untouched |
| `Lifecycle.InstallKeepsSegmentNames` | index.js:193-232 | an install keeps every key of the directory map a single segment: the name it adds holds no `/` and does not join above the entries |
| `Lifecycle.OthersKeepSegmentNames` | index.js:236-315 | update, delete and dependency installation keep every key a single segment |
| `Lifecycle.InstallThenDelete` | index.js:280-285 | deleting what an install created restores the directory map, unless the install took the manager's own name (which the delete guard refuses) |
| `Lifecycle.InstallFlagMatchesDependencyStep` | index.js:224-230 | the install's `needsDependencyInstall` is true exactly when the dependency step would run `npm install` |
| `Lifecycle.UpdateSuccessIgnoresStatus` | index.js:260-265 | the `package.json` status check never decides whether an update succeeded |
| `Lifecycle.MergeConflictTakesPrecedence` | index.js:249-252 | stderr naming a merge conflict yields the merge-conflict error even if it also names local changes |
| `Catalog.Inspect` | index.js:145-168 | git state is probed only for a `.git` directory. Otherwise there is no remote and both flags are false. The remote is the trimmed output of a successful `get-url`. Each flag is set exactly when its command succeeded with non-blank output |
| `Catalog.InspectCommands` | index.js:151-168 | commands run in a directory exactly when it is a checkout, and only in that directory |
| `Catalog.DescriptorField` | index.js:171-174 | a descriptor field is used when present and non-empty, else the fallback |
| `Catalog.BuildRecord` | index.js:170-183 | id, name and description come from `info`, falling back to the directory name or `''` field by field. `package.json`'s version wins over `info`'s. The dependency lists are the manifest's fields, and empty when the manifest or the field is missing. The git fields are copied |
| `Catalog.RecordOf` | index.js:143-183 | a record carries its directory name, is a git plugin exactly when the entry is a checkout, and has consistent git fields |
| `Catalog.CollectSound` | index.js:140-185 | every collected record is the record of a listed entry |
| `Catalog.CollectComplete` | index.js:140-185 | every listed entry's record is collected |
| `Catalog.CollectDistinct` | index.js:140-185 | entries enumerated once give records with distinct directory names |
| `Catalog.CollectCommands` | index.js:151-168 | commands run only in listed checkouts, and every listed checkout is probed |
| `Catalog.Insert` | index.js:186 | insertion adds the element to the multiset |
| `Catalog.InsertSorted` | index.js:186 | insertion keeps the list sorted by name |
| `Catalog.SortByName` | index.js:186 | sorting is a permutation |
| `Catalog.SortByNameCorrect` | index.js:186 | the sort's result is ordered by name and keeps names distinct |
| `Catalog.ListPlugins` | index.js:136-187 | the catalog holds exactly the records of the listed directories, once each, sorted by name. Git commands run only in listed checkouts, and every listed checkout is probed |
| `RelativeTime.TimeAgo` | public/script.js:183-215 | `刚刚` exactly below 60 s, and every other label's number lies within its unit's range |
| `RelativeTime.TimeAgoIsBucket` | public/script.js:187-214 | the chain of floors equals a direct bucketing of the elapsed seconds at 60 s, 1 h, 1 day, 30 days and 360 days |
| `RelativeTime.TimeAgoMonotone` | public/script.js:183-215 | an older timestamp never gets a finer unit or a smaller number |
| `RelativeTime.FutureIsJustNow` | public/script.js:186-191 | a timestamp in the future reads as `刚刚` |
| `View.Badges` | public/script.js:268-284 | the Git, update and local-changes badges appear exactly when their flags hold. The dependency badge appears exactly with `package.json` and dependencies, and carries their count |
| `View.Actions` | public/script.js:305-320 | the update button exists exactly for git plugins and is disabled exactly when no pull is needed. The dependency button exists exactly with `package.json`. Delete is always last |
| `View.RenderCard` | public/script.js:287-304 | the card's search text is the lowercased name and description. The version badge exists exactly for a non-empty version. An empty description shows `无描述` |
| `View.RenderPluginList` | public/script.js:253-325 | an empty catalog shows the placeholder; otherwise there is one card per plugin, in catalog order |
| `View.FilterPlugins` | public/script.js:623-635 | a card is shown exactly when its search text contains the lowercased term |
| `View.EmptyTermShowsAll` | public/script.js:624-629 | an empty term shows every card |
| `View.NarrowingOnlyHides` | public/script.js:623-634 | lengthening the term can only hide cards |
| `View.NameFindsCard` | public/script.js:288 | any term found in the lowercased name finds the card, for a lowercasing that treats the two sides of a space separately, as `toLowerCase` does |
| `View.DescriptionFindsCard` | public/script.js:288 | any term found in the lowercased description finds the card, under the same assumption on lowercasing |
| `Scenarios.InstalledPluginIsListed` | index.js:140-183 | after a successful install of a checkout beside the manager (a clone is a real directory, not a link), the listing shows it as a git plugin (unless it was cloned as `node_modules`, which the listing skips), without local changes when `git status` is clean |
| `Scenarios.CleanStatusNoChanges` | index.js:158-161 | an empty successful `git status --porcelain` means no local changes |
| `Scenarios.SamplePluginScenario` | index.js:193-232 | installing the sample URL into a directory holding only the manager (an empty catalog) yields `sample-plugin`, listed as a clean git plugin |
| `Scenarios.SampleNameIsFree` | index.js:205-214 | `sample-plugin` is not an existing path beside the manager, so the exists-check lets the clone run |
| `Scenarios.DeletedPluginIsNotListed` | index.js:280-285 | after a successful delete no record has that name |
| `Scenarios.FailedInstallKeepsListing` | index.js:216-221 | a failed install leaves the listing unchanged |
| `Scenarios.DependencyInstallRefreshesRecord` | index.js:296-316 | after a successful dependency install, the next listing's record for the plugin is built from the directory the install left |
| `Scenarios.LinkedCheckoutIsNotListed` | index.js:137-142 | a checkout reached through a symbolic link is never listed, yet an update pulls it and a delete removes it |
| `Scenarios.LocalChangesBlockUpdate` | index.js:253-256 | a pull blocked by local changes reports `local_changes` and leaves the directory unchanged |

## Left out

- The Express routes, `init`, the git availability check, console logging and `module.exports` are not modelled. They only forward results or have no effect on them.
- The route-level duplicate of the self-delete guard is left out, because it is subsumed by the guard inside `deletePlugin`.
- No command is executed. The `maxBuffer` ceiling, exit codes and timeouts appear only as a rejected `exec`.
- Shell quoting of the clone URL and directory name is not modelled. Injection through either is out of scope.
- Concurrency between operations on the same directory is not modelled. Each operation is one atomic step.
- A failed `git pull` and a failed `fs.rm` are taken to leave the entry unchanged. Partial effects of either are not modelled.
- What a successful clone, pull or `npm install` leaves on disk is an input (`cloned`, `pulled`, `installed`). A failed `npm install` is taken to leave the plugin directory unchanged.
- `require`'s module cache, path resolution of `main`, and modules that throw while loading all reduce to a lookup in the entry's module map.
- `git fetch origin` runs, but its result is ignored by the code and by the model. Its effect on the later `git log` is part of that command's reported output.
- Names containing `/` are not modelled. The keys of the directory map are single segments, and every operation keeps them so (`Lifecycle.InstallKeepsSegmentNames`, `Lifecycle.OthersKeepSegmentNames`). For install, `''`, `.` and `..` count as existing paths, which they are.
- `Lifecycle.Update`: `''`, `.` and `..` are treated as missing, so the update is refused as not a checkout. In the code, `path.join` makes them the plugins directory or its parent, and the pull would run there if that directory holds a `.git` directory. The plugins directory's own `.git` is outside the model.
- `Naming.DirNameFromUrl`: `path.basename(url, '.git')` is simplified to cutting `.git` from the last segment after trailing `/` are dropped. Node's scan keeps the trailing `/` when the last segment is a proper ending of `.git` (`t`, `it`, `git`), so `https://host/user/git/` installs into `git/` in the code and into `git` in the model. Names containing `/` are outside the model. Node also gives `''` for `path.basename('.git', '.git')` where the model keeps `.git`; the second `.git` strip makes the final name `''` either way.
- `Lifecycle.InstallDependencies`: `''`, `.` and `..` are likewise treated as missing. In the code, `npm install` would run in the plugins directory or its parent if that directory holds a `package.json`, which is outside the model.
- `Lifecycle.DeleteAsWritten`: the directory map is looked up by exact key, which assumes a case-sensitive POSIX file system. On a case-insensitive one (NTFS, APFS by default) `fs.access` and `fs.rm` ignore case, so `deletePlugin('Plugin-Manager')` passes the raw-name guard and removes the manager, where the model reports a missing entry. `Lifecycle.DeleteNeverRemovesManager` relies on the same exact-key lookup. Case variants are likewise treated as absent by the exists-check of install, by update and by dependency installation, and a win32 `\` separator is not modelled.
- `Lifecycle.Delete`: this is the corrected definition named under Findings. It refuses `''`, `.` and `..` as missing entries, where the code removes the whole plugins directory or its parent (modelled by `Lifecycle.DeleteAsWritten`). The details of a missing-entry failure carry the entry name, where Node's message carries the absolute path.
- `localeCompare` is any total preorder and `toLowerCase` is any function.
- `View.NameFindsCard`: assumes that lowercasing `a + ' ' + b` gives the lowercased parts joined by a space. `toLowerCase` does this, because its one context-dependent rule (final sigma) does not look past a space.
- `View.DescriptionFindsCard`: rests on the same assumption about lowercasing.
- `Catalog.SortByName`: the sort is proved ordered and a permutation, but not stable. `Array.prototype.sort` is stable, so records with equal names keep their `readdir` order in the source; the model leaves their order unspecified.
- HTML escaping of the card attributes, the DOM, toasts, modals, the details dialog and the loading overlay are not modelled.
- `timeAgo`'s `Date` parsing is not modelled, and neither is its `NaN` for an invalid timestamp (every comparison is false there, giving `NaN年前`). The elapsed milliseconds are an integer input.
- The code is followed as written on three points:
  - the `index.mjs` fallback never yields a descriptor;
  - `version` prefers `package.json` over `info`, while id, name and description never fall back to the manifest;
  - a generic pull failure and a missing delete target carry no error code.

## Findings

| source | as written | input that shows it | evidently intended | confidence | as-written member | corrected member |
|---|---|---|---|---|---|---|
| index.js:272-285 | the self-protection guard compares the raw name with `plugin-manager`; `path.join(PLUGINS_DIR, name)` for `.` (or `''`) is the plugins directory itself, `fs.access` succeeds and `fs.rm` removes every plugin, the manager included (`..` removes the parent). On a case-insensitive file system `Plugin-Manager` bypasses the guard too, which the exact-key model cannot show (see Left out) | `deletePlugin('.')`, e.g. `DELETE /plugins/%2E` | only an entry inside the plugins directory can be removed, so the manager can never be | not executed; medium | `Lifecycle.DeleteAsWrittenRemovesManager` | `Lifecycle.DeleteNeverRemovesManager` |

=== FILE: catalog.dfy ===
/**
 `listInstalledPlugins` and `isGitRepository`: the catalog of installed
 plugins. Every directory of the plugins directory other than the manager's
 own and `node_modules` gets one record, merged from its metadata and, for git
 checkouts, from four git commands whose results are inputs. The records are
 sorted by display name with `localeCompare`, modelled as an abstract total
 preorder `le` on strings.
 */
module Catalog {
  import opened Wrappers
  import opened Strings
  import opened Process
  import opened World
  import opened Metadata

  /** What the four listing commands reported for one checkout. */
  datatype GitProbe = GitProbe(remote: Exec, status: Exec, fetch: Exec, log: Exec)

  /** The git-derived part of a record. */
  datatype GitState = GitState(isGit: bool, remoteUrl: Option<string>, hasLocalChanges: bool, needsPull: bool)

  /** One element of the listing's result array. */
  datatype PluginRecord = PluginRecord(
    id: string,
    dirName: string,
    name: string,
    description: string,
    version: string,
    isGit: bool,
    remoteUrl: Option<string>,
    hasLocalChanges: bool,
    needsPull: bool,
    hasPackageJson: bool,
    dependencies: seq<string>,
    devDependencies: seq<string>)

  /** A record's git fields agree: no remote and no drift flag without a checkout. */
  predicate WellFormedRecord(r: PluginRecord) {
    && (r.remoteUrl.Some? ==> r.isGit)
    && (!r.isGit ==> !r.hasLocalChanges && !r.needsPull)
  }

  /** The commands the listing runs in a checkout, in order. */
  function ProbeCommands(name: string): seq<Command> {
    [GitRemoteGetUrl(name), GitStatusPorcelain(name), GitFetchOrigin(name), GitLogIncoming(name)]
  }

  /**
   The git part of the listing for one directory: nothing is probed unless
   `.git` is a directory; the remote URL is the trimmed output of a successful
   `git remote get-url`; local changes and incoming commits are non-blank
   output of successful `git status` / `git log` runs. The result of
   `git fetch` is ignored.
   */
  function Inspect(e: Entry, probe: GitProbe): (g: GitState)
    ensures g.isGit <==> IsGitCheckout(e)
    ensures !g.isGit ==> g.remoteUrl == None && !g.hasLocalChanges && !g.needsPull
    ensures g.remoteUrl.Some? <==> g.isGit && probe.remote.Exited?
    ensures g.remoteUrl.Some? ==> g.remoteUrl.value == Trim(probe.remote.out)
    ensures g.hasLocalChanges <==> g.isGit && SucceededWithOutput(RunCommand(probe.status))
    ensures g.needsPull <==> g.isGit && SucceededWithOutput(RunCommand(probe.log))
  {
    if !IsGitCheckout(e) then
      GitState(false, None, false, false)
    else
      var remote := RunCommand(probe.remote);
      var status := RunCommand(probe.status);
      var log := RunCommand(probe.log);
      GitState(
        true,
        if remote.Succeeded? then Some(Trim(remote.stdout)) else None,
        SucceededWithOutput(status),
        SucceededWithOutput(log))
  }

  /** The commands run for one listed directory. */
  function InspectCommands(name: string, e: Entry): (cmds: seq<Command>)
    ensures cmds != [] <==> IsGitCheckout(e)
    ensures forall c | c in cmds :: c.dir == name
  {
    if IsGitCheckout(e) then ProbeCommands(name) else []
  }

  /** `o?.field || fallback` on a possibly missing descriptor. */
  function DescriptorField(info: Option<Descriptor>, field: Descriptor -> string, fallback: string): (v: string)
    ensures info.Some? && field(info.value) != "" ==> v == field(info.value)
    ensures info.None? || field(info.value) == "" ==> v == fallback
  {
    if info.Some? then Or(field(info.value), fallback) else fallback
  }

  /** `pkg?.deps ? Object.keys(pkg.deps) : []` */
  function DependencyKeys(deps: Option<seq<string>>): seq<string> {
    deps.ValueOr([])
  }

  /**
   The record of one directory. Each field falls back on its own, with
   JavaScript's `||` (an empty string counts as missing): `id` and `name`
   from the descriptor, else the directory name; `description` from the
   descriptor, else `''`; `version` from `package.json` first, then the
   descriptor, then `''`.
   */
  function BuildRecord(dirName: string, meta: PluginMetadata, git: GitState): (r: PluginRecord)
    requires !git.isGit ==> git.remoteUrl == None && !git.hasLocalChanges && !git.needsPull
    ensures r.dirName == dirName
    ensures meta.info.Some? && meta.info.value.id != "" ==> r.id == meta.info.value.id
    ensures meta.info.None? || meta.info.value.id == "" ==> r.id == dirName
    ensures meta.info.Some? && meta.info.value.name != "" ==> r.name == meta.info.value.name
    ensures meta.info.None? || meta.info.value.name == "" ==> r.name == dirName
    ensures meta.info.Some? && meta.info.value.description != "" ==> r.description == meta.info.value.description
    ensures meta.info.None? || meta.info.value.description == "" ==> r.description == ""
    ensures meta.pkgJson.Some? && meta.pkgJson.value.version != "" ==> r.version == meta.pkgJson.value.version
    ensures (meta.pkgJson.None? || meta.pkgJson.value.version == "") && meta.info.Some? ==>
      r.version == meta.info.value.version
    ensures (meta.pkgJson.None? || meta.pkgJson.value.version == "") && meta.info.None? ==> r.version == ""
    ensures r.hasPackageJson <==> meta.pkgJson.Some?
    ensures !r.hasPackageJson ==> r.dependencies == [] && r.devDependencies == []
    ensures r.hasPackageJson && meta.pkgJson.value.dependencies.Some? ==>
      r.dependencies == meta.pkgJson.value.dependencies.value
    ensures r.hasPackageJson && meta.pkgJson.value.devDependencies.Some? ==>
      r.devDependencies == meta.pkgJson.value.devDependencies.value
    ensures r.hasPackageJson && meta.pkgJson.value.dependencies.None? ==> r.dependencies == []
    ensures r.hasPackageJson && meta.pkgJson.value.devDependencies.None? ==> r.devDependencies == []
    ensures r.isGit == git.isGit && r.remoteUrl == git.remoteUrl
    ensures r.hasLocalChanges == git.hasLocalChanges && r.needsPull == git.needsPull
    ensures WellFormedRecord(r)
  {
    var info := meta.info;
    var pkg := meta.pkgJson;
    PluginRecord(
      DescriptorField(info, (d: Descriptor) => d.id, dirName),
      dirName,
      DescriptorField(info, (d: Descriptor) => d.name, dirName),
      DescriptorField(info, (d: Descriptor) => d.description, ""),
      Or(if pkg.Some? then pkg.value.version else "", DescriptorField(info, (d: Descriptor) => d.version, "")),
      git.isGit,
      git.remoteUrl,
      git.hasLocalChanges,
      git.needsPull,
      pkg.Some?,
      if pkg.Some? then DependencyKeys(pkg.value.dependencies) else [],
      if pkg.Some? then DependencyKeys(pkg.value.devDependencies) else [])
  }

  /** The record the listing builds for the entry `name`. */
  function RecordOf(w: World, probe: string -> GitProbe, name: string): (r: PluginRecord)
    requires name in w
    ensures r.dirName == name
    ensures r.isGit <==> IsGitRepository(w, name)
    ensures WellFormedRecord(r)
  {
    BuildRecord(name, GetPluginMetadata(w[name]), Inspect(w[name], probe(name)))
  }

  predicate DistinctNames(s: seq<PluginRecord>) {
    forall i, j | 0 <= i < j < |s| :: s[i].dirName != s[j].dirName
  }

  ghost predicate TotalPreorder(le: (string, string) -> bool) {
    && (forall a, b :: le(a, b) || le(b, a))
    && (forall a, b, c :: le(a, b) && le(b, c) ==> le(a, c))
  }

  ghost predicate SortedByName(s: seq<PluginRecord>, le: (string, string) -> bool) {
    forall i, j | 0 <= i < j < |s| :: le(s[i].name, s[j].name)
  }

  /** `order` is what `readdir` returned: every entry exactly once. */
  predicate Enumerates(order: seq<string>, w: World) {
    && (forall i | 0 <= i < |order| :: order[i] in w)
    && (forall n | n in w :: n in order)
    && (forall i, j | 0 <= i < j < |order| :: order[i] != order[j])
  }

  datatype Listing = Listing(catalog: seq<PluginRecord>, commands: seq<Command>)

  /** The loop of `listInstalledPlugins` over the `readdir` entries, before sorting. */
  function Collect(order: seq<string>, w: World, probe: string -> GitProbe): (l: Listing)
    requires forall i | 0 <= i < |order| :: order[i] in w
  {
    if order == [] then Listing([], [])
    else
      var name := order[0];
      var rest := Collect(order[1..], w, probe);
      if IsListed(name, w[name]) then
        Listing([RecordOf(w, probe, name)] + rest.catalog, InspectCommands(name, w[name]) + rest.commands)
      else
        rest
  }

  /** Every collected record is the record of a listed entry. */
  lemma {:induction false} CollectSound(order: seq<string>, w: World, probe: string -> GitProbe)
    requires forall i | 0 <= i < |order| :: order[i] in w
    ensures forall r | r in Collect(order, w, probe).catalog ::
      && r.dirName in w && r.dirName in order
      && IsListed(r.dirName, w[r.dirName])
      && r == RecordOf(w, probe, r.dirName)
  {
    if order != [] {
      CollectSound(order[1..], w, probe);
    }
  }

  lemma DistinctCons(x: PluginRecord, s: seq<PluginRecord>)
    requires DistinctNames(s)
    requires forall r | r in s :: r.dirName != x.dirName
    ensures DistinctNames([x] + s)
  {
    var c := [x] + s;
    forall i, j | 0 <= i < j < |c| ensures c[i].dirName != c[j].dirName {
      if i == 0 {
        assert c[j] == s[j - 1];
      } else {
        assert c[i] == s[i - 1] && c[j] == s[j - 1];
      }
    }
  }

  /** Every listed entry of `order` has its record collected. */
  lemma {:induction false} CollectComplete(order: seq<string>, w: World, probe: string -> GitProbe)
    requires forall i | 0 <= i < |order| :: order[i] in w
    ensures forall i | 0 <= i < |order| && IsListed(order[i], w[order[i]]) ::
      RecordOf(w, probe, order[i]) in Collect(order, w, probe).catalog
  {
    if order != [] {
      CollectComplete(order[1..], w, probe);
      forall i | 0 < i < |order| && IsListed(order[i], w[order[i]])
        ensures RecordOf(w, probe, order[i]) in Collect(order, w, probe).catalog
      {
        assert order[i] == order[1..][i - 1];
      }
    }
  }

  lemma {:induction false} CollectNames(order: seq<string>, w: World, probe: string -> GitProbe)
    requires forall i | 0 <= i < |order| :: order[i] in w
    ensures forall r | r in Collect(order, w, probe).catalog :: r.dirName in order
  {
    if order != [] {
      CollectNames(order[1..], w, probe);
    }
  }

  /** Distinct `readdir` names give records with distinct directory names. */
  lemma {:induction false} CollectDistinct(order: seq<string>, w: World, probe: string -> GitProbe)
    requires forall i | 0 <= i < |order| :: order[i] in w
    requires forall i, j | 0 <= i < j < |order| :: order[i] != order[j]
    ensures DistinctNames(Collect(order, w, probe).catalog)
  {
    if order != [] {
      var rest := Collect(order[1..], w, probe);
      CollectDistinct(order[1..], w, probe);
      CollectNames(order[1..], w, probe);
      if IsListed(order[0], w[order[0]]) {
        var first := RecordOf(w, probe, order[0]);
        assert order[0] !in order[1..];
        assert forall r | r in rest.catalog :: r.dirName != first.dirName;
        DistinctCons(first, rest.catalog);
      }
    }
  }

  /** Commands are run only in listed checkouts, and every listed checkout is probed. */
  lemma {:induction false} CollectCommands(order: seq<string>, w: World, probe: string -> GitProbe)
    requires forall i | 0 <= i < |order| :: order[i] in w
    ensures forall c | c in Collect(order, w, probe).commands ::
      c.dir in w && c.dir in order && IsListed(c.dir, w[c.dir]) && IsGitCheckout(w[c.dir])
    ensures forall i | 0 <= i < |order| && IsListed(order[i], w[order[i]]) ::
      forall c | c in InspectCommands(order[i], w[order[i]]) :: c in Collect(order, w, probe).commands
  {
    if order != [] {
      CollectCommands(order[1..], w, probe);
      forall i | 0 < i < |order| && IsListed(order[i], w[order[i]])
        ensures forall c | c in InspectCommands(order[i], w[order[i]]) :: c in Collect(order, w, probe).commands
      {
        assert order[i] == order[1..][i - 1];
      }
    }
  }

  /** Inserts `x` before the first record whose name does not sort before it. */
  function Insert(x: PluginRecord, s: seq<PluginRecord>, le: (string, string) -> bool): (r: seq<PluginRecord>)
    ensures multiset(r) == multiset(s) + multiset{x}
  {
    if s == [] then [x]
    else if le(x.name, s[0].name) then [x] + s
    else
      assert s == [s[0]] + s[1..];
      [s[0]] + Insert(x, s[1..], le)
  }

  lemma {:induction false} InsertSorted(x: PluginRecord, s: seq<PluginRecord>, le: (string, string) -> bool)
    requires TotalPreorder(le)
    requires SortedByName(s, le)
    ensures SortedByName(Insert(x, s, le), le)
  {
    if s != [] && !le(x.name, s[0].name) {
      var rest := Insert(x, s[1..], le);
      InsertSorted(x, s[1..], le);
      forall k | 0 <= k < |rest| ensures le(s[0].name, rest[k].name) {
        assert rest[k] in multiset(rest);
        if rest[k] != x {
          assert rest[k] in s[1..];
        }
      }
    }
  }

  lemma {:induction false} InsertDistinct(x: PluginRecord, s: seq<PluginRecord>, le: (string, string) -> bool)
    requires DistinctNames(s)
    requires forall y | y in s :: y.dirName != x.dirName
    ensures DistinctNames(Insert(x, s, le))
  {
    if s != [] && !le(x.name, s[0].name) {
      var rest := Insert(x, s[1..], le);
      InsertDistinct(x, s[1..], le);
      forall k | 0 <= k < |rest| ensures s[0].dirName != rest[k].dirName {
        assert rest[k] in multiset(rest);
        if rest[k] != x {
          var m :| 0 <= m < |s[1..]| && s[1..][m] == rest[k];
          assert s[m + 1] == rest[k];
        }
      }
    }
  }

  /** `Array.prototype.sort` by name, as insertion sort. */
  function SortByName(s: seq<PluginRecord>, le: (string, string) -> bool): (r: seq<PluginRecord>)
    ensures multiset(r) == multiset(s)
  {
    if s == [] then []
    else
      assert s == [s[0]] + s[1..];
      Insert(s[0], SortByName(s[1..], le), le)
  }

  /** Sorting yields a sorted permutation and keeps directory names distinct. */
  lemma {:induction false} SortByNameCorrect(s: seq<PluginRecord>, le: (string, string) -> bool)
    requires TotalPreorder(le)
    ensures SortedByName(SortByName(s, le), le)
    ensures DistinctNames(s) ==> DistinctNames(SortByName(s, le))
  {
    if s != [] {
      var rest := SortByName(s[1..], le);
      SortByNameCorrect(s[1..], le);
      InsertSorted(s[0], rest, le);
      if DistinctNames(s) {
        forall y | y in rest ensures y.dirName != s[0].dirName {
          assert y in multiset(rest);
          var m :| 0 <= m < |s[1..]| && s[1..][m] == y;
          assert s[m + 1] == y;
        }
        InsertDistinct(s[0], rest, le);
      }
    }
  }

  /**
   `listInstalledPlugins()` over the directory map `w`, with `order` the
   `readdir` order and `probe(n)` what the git commands reported in `n`.
   The catalog holds exactly one record per directory other than the
   manager's own and `node_modules`, sorted by name; the only commands run
   are the probes of git checkouts, and every checkout is probed.
   */
  function ListPlugins(w: World, order: seq<string>, probe: string -> GitProbe, le: (string, string) -> bool): (l: Listing)
    requires Enumerates(order, w)
    requires TotalPreorder(le)
    ensures forall r | r in l.catalog :: r.dirName in ListedNames(w) && r == RecordOf(w, probe, r.dirName)
    ensures forall n | n in ListedNames(w) :: RecordOf(w, probe, n) in l.catalog
    ensures DistinctNames(l.catalog)
    ensures SortedByName(l.catalog, le)
    ensures forall c | c in l.commands :: c.dir in ListedNames(w) && IsGitRepository(w, c.dir)
    ensures forall n | n in ListedNames(w) && IsGitRepository(w, n) ::
      forall c | c in ProbeCommands(n) :: c in l.commands
  {
    var unsorted := Collect(order, w, probe);
    CollectSound(order, w, probe);
    CollectComplete(order, w, probe);
    CollectDistinct(order, w, probe);
    CollectCommands(order, w, probe);
    var sorted := SortByName(unsorted.catalog, le);
    SortByNameCorrect(unsorted.catalog, le);
    assert forall r | r in sorted :: r in unsorted.catalog by {
      forall r | r in sorted ensures r in unsorted.catalog {
        assert r in multiset(sorted);
      }
    }
    assert forall n | n in ListedNames(w) :: RecordOf(w, probe, n) in sorted by {
      forall n | n in ListedNames(w) ensures RecordOf(w, probe, n) in sorted {
        var i :| 0 <= i < |order| && order[i] == n;
        assert RecordOf(w, probe, n) in multiset(unsorted.catalog);
      }
    }
    assert forall n | n in ListedNames(w) && IsGitRepository(w, n) ::
      forall c | c in ProbeCommands(n) :: c in unsorted.commands by {
      forall n | n in ListedNames(w) && IsGitRepository(w, n)
        ensures forall c | c in ProbeCommands(n) :: c in unsorted.commands
      {
        var i :| 0 <= i < |order| && order[i] == n;
        assert InspectCommands(n, w[n]) == ProbeCommands(n);
      }
    }
    Listing(sorted, unsorted.commands)
  }
}

=== FILE: lifecycle.dfy ===
/**
 The four lifecycle operations of index.js: `installPlugin`, `updatePlugin`,
 `deletePlugin` and `installDependencies`. Each returns the outcome object the
 HTTP layer forwards, the plugins directory afterwards, and the effects it
 performed (commands run, entries removed), so "runs no command" and "changes
 nothing" are statements about those two components.
 */
module Lifecycle {
  import opened Wrappers
  import opened Strings
  import opened Process
  import opened World
  import opened Naming

  /** The `error` field of an update failure. */
  datatype ErrorCode = MergeConflict | LocalChanges {
    function Text(): string {
      match this
      case MergeConflict => "merge_conflict"
      case LocalChanges => "local_changes"
    }
  }

  /** The human-readable `message` of every outcome. */
  datatype Message =
    | AlreadyExists(dir: string)
    | CloneFailed
    | Installed(dir: string)
    | NotAGitRepository
    | UpdateMergeConflict
    | UpdateLocalChanges
    | UpdateFailed
    | Updated
    | CannotDeleteSelf
    | Deleted(dir: string)
    | DeleteFailed
    | NoPackageJson
    | DependencyInstallFailed
    | DependenciesInstalled
  {
    function Text(): string {
      match this
      case AlreadyExists(d) => "插件目录 '" + d + "' 已存在。"
      case CloneFailed => "克隆仓库失败"
      case Installed(d) => "插件 '" + d + "' 安装成功。"
      case NotAGitRepository => "插件不是一个有效的 Git 仓库。"
      case UpdateMergeConflict => "更新失败：存在合并冲突，请手动解决。"
      case UpdateLocalChanges => "更新失败：存在未提交的本地更改，请先处理（提交或暂存）。"
      case UpdateFailed => "更新失败"
      case Updated => "插件更新成功。"
      case CannotDeleteSelf => "不能删除插件管理器自身！"
      case Deleted(d) => "插件 '" + d + "' 已删除。"
      case DeleteFailed => "删除插件失败"
      case NoPackageJson => "插件没有找到 package.json 文件，无需安装依赖。"
      case DependencyInstallFailed => "依赖安装失败"
      case DependenciesInstalled => "依赖安装成功。"
    }
  }

  /** `{success, message, error?, details?, needsDependencyInstall?, pluginDirName?}` */
  datatype Outcome = Outcome(
    success: bool,
    message: Message,
    error: Option<ErrorCode>,
    details: Option<string>,
    needsDependencyInstall: Option<bool>,
    pluginDirName: Option<string>)

  /** A failure that carries only its message. */
  function Refusal(m: Message): Outcome {
    Outcome(false, m, None, None, None, None)
  }

  datatype Effect = Ran(command: Command) | Removed(dir: string)

  /** What an operation returns, the directory map it leaves, and what it did. */
  datatype Step = Step(outcome: Outcome, world: World, effects: seq<Effect>)

  /** The outcome of `fs.rm(dir, {recursive: true, force: true})`. */
  datatype RemoveResult = RemoveOk | RemoveError(message: string)

  /** The error message of `fs.access` on a missing plugin directory. */
  function MissingEntryMessage(name: string): string {
    "ENOENT: no such file or directory, access '" + name + "'"
  }

  const MergeConflictPhrase: string := "Merge conflict"
  const LocalChangesPhrase: string := "Your local changes to the following files would be overwritten by merge"

  // ---------------------------------------------------------------- install

  /**
   `installPlugin(gitUrl)`. `clone` is what `git clone` reported and `cloned`
   the directory it leaves behind when it succeeds. A failed clone is taken to
   leave no directory.
   */
  function Install(w: World, gitUrl: string, clone: Exec, cloned: Entry): (s: Step)
    ensures var name := DirNameFromUrl(gitUrl);
      && (PathExists(w, name) ==>
            s.outcome == Refusal(AlreadyExists(name)) && s.world == w && s.effects == [])
      && (!PathExists(w, name) ==> s.effects == [Ran(GitClone(gitUrl, name))])
      && (s.outcome.success <==> !PathExists(w, name) && clone.Exited?)
      && (!PathExists(w, name) && clone.Threw? ==>
            && s.world == w
            && s.outcome == Outcome(false, CloneFailed, None, Some(Diagnostic(RunCommand(clone))), None, None))
      && (s.outcome.success ==>
            && s.world == w[name := cloned]
            && s.outcome == Outcome(true, Installed(name), None, None, Some(HasPackageJson(cloned)), Some(name)))
    ensures forall n | n in w :: n in s.world && s.world[n] == w[n]
    ensures s.world.Keys <= w.Keys + {DirNameFromUrl(gitUrl)}
  {
    var name := DirNameFromUrl(gitUrl);
    if PathExists(w, name) then
      Step(Refusal(AlreadyExists(name)), w, [])
    else
      var r := RunCommand(clone);
      var effects := [Ran(GitClone(gitUrl, name))];
      if r.Failed? then
        Step(Outcome(false, CloneFailed, None, Some(Diagnostic(r)), None, None), w, effects)
      else
        Step(Outcome(true, Installed(name), None, None, Some(HasPackageJson(cloned)), Some(name)),
             w[name := cloned], effects)
  }

  // ----------------------------------------------------------------- update

  /**
   How a failed `git pull` is classified from its stderr: a merge conflict
   first, then local changes the merge would overwrite, otherwise nothing.
   */
  function ClassifyPullFailure(stderr: string): (code: Option<ErrorCode>)
    ensures code == Some(MergeConflict) <==> IsInfix(MergeConflictPhrase, stderr)
    ensures code == Some(LocalChanges)
        <==> !IsInfix(MergeConflictPhrase, stderr) && IsInfix(LocalChangesPhrase, stderr)
    ensures code == None
        <==> !IsInfix(MergeConflictPhrase, stderr) && !IsInfix(LocalChangesPhrase, stderr)
  {
    if IsInfix(MergeConflictPhrase, stderr) then Some(MergeConflict)
    else if IsInfix(LocalChangesPhrase, stderr) then Some(LocalChanges)
    else None
  }

  /** The outcome of a failed pull, by its classification. */
  function PullFailure(r: CommandResult): (o: Outcome)
    requires r.Failed?
    ensures !o.success
    ensures o.error == ClassifyPullFailure(r.stderr)
    ensures o.error.Some? ==> o.details == Some(r.stderr)
    ensures o.error.None? ==> o.details == Some(Diagnostic(r)) && o.message == UpdateFailed
  {
    match ClassifyPullFailure(r.stderr)
    case Some(MergeConflict) => Outcome(false, UpdateMergeConflict, Some(MergeConflict), Some(r.stderr), None, None)
    case Some(LocalChanges) => Outcome(false, UpdateLocalChanges, Some(LocalChanges), Some(r.stderr), None, None)
    case None => Outcome(false, UpdateFailed, None, Some(Diagnostic(r)), None, None)
  }

  /**
   `updatePlugin(name)`. `pull` and `status` are what `git pull` and
   `git status --porcelain package.json` reported; `pulled` is the checkout
   after a successful pull. A failed pull is taken to leave the checkout as it
   was.
   */
  function Update(w: World, name: string, pull: Exec, status: Exec, pulled: Entry): (s: Step)
    ensures !IsGitRepository(w, name) ==>
      s.outcome == Refusal(NotAGitRepository) && s.world == w && s.effects == []
    ensures IsGitRepository(w, name) ==> |s.effects| >= 1 && s.effects[0] == Ran(GitPull(name))
    ensures s.outcome.success <==> IsGitRepository(w, name) && pull.Exited?
    ensures IsGitRepository(w, name) && pull.Threw? ==>
      s.outcome == PullFailure(RunCommand(pull)) && s.world == w && s.effects == [Ran(GitPull(name))]
    ensures s.outcome.success ==>
      && s.outcome == Outcome(true, Updated, None, None, Some(SucceededWithOutput(RunCommand(status))), None)
      && s.effects == [Ran(GitPull(name)), Ran(GitStatusPackageJson(name))]
      && s.world == w[name := pulled]
    ensures s.world.Keys == w.Keys
    ensures forall n | n in w && n != name :: s.world[n] == w[n]
  {
    if !IsGitRepository(w, name) then
      Step(Refusal(NotAGitRepository), w, [])
    else
      var r := RunCommand(pull);
      if r.Failed? then
        Step(PullFailure(r), w, [Ran(GitPull(name))])
      else
        var pkgChanged := SucceededWithOutput(RunCommand(status));
        Step(Outcome(true, Updated, None, None, Some(pkgChanged), None),
             w[name := pulled], [Ran(GitPull(name)), Ran(GitStatusPackageJson(name))])
  }

  // ----------------------------------------------------------------- delete

  /**
   `deletePlugin(name)`. The self-protection guard comes first and looks at
   nothing else; then the entry must exist; then `fs.rm` (whose failure is
   taken to leave the directory map as it was). Names that `path.join`
   resolves to the plugins directory itself or above are refused as missing:
   see `DeleteAsWritten` for what the code does with them.
   */
  function Delete(w: World, name: string, rm: RemoveResult): (s: Step)
    ensures name == PluginId ==> s.outcome == Refusal(CannotDeleteSelf) && s.world == w && s.effects == []
    ensures name != PluginId && name !in w ==>
      && s.outcome == Outcome(false, DeleteFailed, None, Some(MissingEntryMessage(name)), None, None)
      && s.world == w && s.effects == []
    ensures s.outcome.success <==> name != PluginId && name in w && rm.RemoveOk?
    ensures name != PluginId && name in w ==> s.effects == [Removed(name)]
    ensures name != PluginId && name in w && rm.RemoveError? ==>
      s.outcome == Outcome(false, DeleteFailed, None, Some(rm.message), None, None) && s.world == w
    ensures s.outcome.success ==>
      s.outcome == Outcome(true, Deleted(name), None, None, None, None) && s.world.Keys == w.Keys - {name}
    ensures forall n | n in w && n != name :: n in s.world && s.world[n] == w[n]
    ensures s.world.Keys <= w.Keys
  {
    if name == PluginId then
      Step(Refusal(CannotDeleteSelf), w, [])
    else if name !in w then
      Step(Outcome(false, DeleteFailed, None, Some(MissingEntryMessage(name)), None, None), w, [])
    else
      match rm
      case RemoveOk => Step(Outcome(true, Deleted(name), None, None, None, None), w - {name}, [Removed(name)])
      case RemoveError(m) => Step(Outcome(false, DeleteFailed, None, Some(m), None, None), w, [Removed(name)])
  }

  /**
   `deletePlugin(name)` as index.js writes it: the guard compares the raw name
   with the manager's id, so a name that joins to the plugins directory (or
   its parent) passes it, `fs.access` succeeds, and the recursive removal
   takes every plugin with it, the manager included.
   */
  function DeleteAsWritten(w: World, name: string, rm: RemoveResult): (s: Step)
    ensures !JoinsAboveEntries(name) ==> s == Delete(w, name, rm)
    ensures JoinsAboveEntries(name) && rm.RemoveOk? ==> s.outcome.success && s.world == map[]
  {
    if JoinsAboveEntries(name) then
      match rm
      case RemoveOk => Step(Outcome(true, Deleted(name), None, None, None, None), map[], [Removed(name)])
      case RemoveError(m) => Step(Outcome(false, DeleteFailed, None, Some(m), None, None), w, [Removed(name)])
    else
      Delete(w, name, rm)
  }

  /** The self-protection guard is bypassed by `.`: the manager's own directory is removed. */
  lemma DeleteAsWrittenRemovesManager(w: World)
    requires PluginId in w
    ensures DeleteAsWritten(w, ".", RemoveOk).outcome.success
    ensures PluginId !in DeleteAsWritten(w, ".", RemoveOk).world
  {
  }

  /**
   With the corrected delete, no name and no removal result can take the
   manager's own directory away.
   */
  lemma DeleteNeverRemovesManager(w: World, name: string, rm: RemoveResult)
    requires PluginId in w
    ensures PluginId in Delete(w, name, rm).world
    ensures Delete(w, name, rm).world[PluginId] == w[PluginId]
  {
  }

  /**
   The self-protection refusal does not depend on the directory map or the
   removal result: it happens whether or not the directory exists.
   */
  lemma DeleteSelfIgnoresWorld(w1: World, w2: World, rm1: RemoveResult, rm2: RemoveResult)
    ensures Delete(w1, PluginId, rm1).outcome == Delete(w2, PluginId, rm2).outcome
    ensures Delete(w1, PluginId, rm1).outcome.message == CannotDeleteSelf
  {
  }

  // ---------------------------------------------------------- dependencies

  /** `fs.access(<dir>/package.json)` on the named entry. */
  predicate HasPackageJsonAt(w: World, name: string) {
    name in w && HasPackageJson(w[name])
  }

  /**
   `installDependencies(name)`, with `npm` what `npm install` reported and
   `installed` the plugin directory a successful install leaves (its new
   `node_modules` can make modules loadable that failed to load before). A
   failed install is taken to leave the directory as it was.
   */
  function InstallDependencies(w: World, name: string, npm: Exec, installed: Entry): (s: Step)
    ensures !HasPackageJsonAt(w, name) ==> s.outcome == Refusal(NoPackageJson) && s.effects == []
    ensures HasPackageJsonAt(w, name) ==> s.effects == [Ran(NpmInstall(name))]
    ensures s.outcome.success <==> HasPackageJsonAt(w, name) && npm.Exited?
    ensures HasPackageJsonAt(w, name) && npm.Threw? ==>
      s.outcome == Outcome(false, DependencyInstallFailed, None, Some(Diagnostic(RunCommand(npm))), None, None)
    ensures s.outcome.success ==>
      s.outcome == Outcome(true, DependenciesInstalled, None, None, None, None) && s.world == w[name := installed]
    ensures !s.outcome.success ==> s.world == w
    ensures s.world.Keys == w.Keys
    ensures forall n | n in w && n != name :: s.world[n] == w[n]
  {
    if !HasPackageJsonAt(w, name) then
      Step(Refusal(NoPackageJson), w, [])
    else
      var r := RunCommand(npm);
      if r.Failed? then
        Step(Outcome(false, DependencyInstallFailed, None, Some(Diagnostic(r)), None, None), w, [Ran(NpmInstall(name))])
      else
        Step(Outcome(true, DependenciesInstalled, None, None, None, None), w[name := installed], [Ran(NpmInstall(name))])
  }

  // ------------------------------------------------ properties across calls

  /**
   Every operation keeps the directory map's keys single segments: an install
   only adds a name that holds no `/` and does not join above the entries,
   and the others add no key at all.
   */
  lemma InstallKeepsSegmentNames(w: World, url: string, clone: Exec, cloned: Entry)
    requires SegmentNames(w)
    ensures SegmentNames(Install(w, url, clone, cloned).world)
  {
    var name := DirNameFromUrl(url);
    var w' := Install(w, url, clone, cloned).world;
    forall n | n in w'
      ensures IsSegment(n)
    {
      if n !in w {
        assert n == name && !PathExists(w, name);
      }
    }
  }

  lemma OthersKeepSegmentNames(
    w: World, name: string, pull: Exec, status: Exec, pulled: Entry, rm: RemoveResult,
    npm: Exec, installed: Entry)
    requires SegmentNames(w)
    ensures SegmentNames(Update(w, name, pull, status, pulled).world)
    ensures SegmentNames(Delete(w, name, rm).world)
    ensures SegmentNames(InstallDependencies(w, name, npm, installed).world)
  {
  }

  lemma AddThenRemove(w: World, name: string, e: Entry)
    requires name !in w
    ensures w[name := e] - {name} == w
  {
  }

  /**
   Installing twice from locators that derive the same directory name: the
   second call reports that the directory exists and leaves the first
   installation untouched.
   */
  lemma InstallTwice(w: World, url1: string, url2: string, clone1: Exec, clone2: Exec, e1: Entry, e2: Entry)
    requires DirNameFromUrl(url1) == DirNameFromUrl(url2)
    requires clone1.Exited? && !PathExists(w, DirNameFromUrl(url1))
    ensures var w1 := Install(w, url1, clone1, e1).world;
      && Install(w1, url2, clone2, e2).outcome == Refusal(AlreadyExists(DirNameFromUrl(url1)))
      && Install(w1, url2, clone2, e2).world == w1
      && Install(w1, url2, clone2, e2).effects == []
  {
  }

  /**
   Deleting what an install created restores the directory map, unless the
   install took the manager's own name (which the delete guard then refuses).
   */
  lemma InstallThenDelete(w: World, url: string, clone: Exec, cloned: Entry)
    requires clone.Exited? && !PathExists(w, DirNameFromUrl(url))
    ensures DirNameFromUrl(url) != PluginId ==>
      Delete(Install(w, url, clone, cloned).world, DirNameFromUrl(url), RemoveOk).world == w
  {
    var name := DirNameFromUrl(url);
    var s := Install(w, url, clone, cloned);
    assert !PathExists(w, name);
    assert s.world == w[name := cloned];
    AddThenRemove(w, name, cloned);
  }

  /**
   An install's `needsDependencyInstall` flag tells exactly whether the
   dependency step that follows it will run `npm install`.
   */
  lemma InstallFlagMatchesDependencyStep(
    w: World, url: string, clone: Exec, cloned: Entry, npm: Exec, installed: Entry)
    requires clone.Exited? && !PathExists(w, DirNameFromUrl(url))
    ensures var s := Install(w, url, clone, cloned);
      (s.outcome.needsDependencyInstall == Some(true)
       <==> InstallDependencies(s.world, DirNameFromUrl(url), npm, installed).effects != [])
  {
  }

  /**
   Whether `git status` could run decides only the dependency flag, never
   whether the update succeeded.
   */
  lemma UpdateSuccessIgnoresStatus(w: World, name: string, pull: Exec, status1: Exec, status2: Exec, pulled: Entry)
    ensures Update(w, name, pull, status1, pulled).outcome.success
        == Update(w, name, pull, status2, pulled).outcome.success
    ensures Update(w, name, pull, status1, pulled).world == Update(w, name, pull, status2, pulled).world
  {
  }

  /**
   A stderr naming both a merge conflict and blocking local changes is
   classified as a merge conflict.
   */
  lemma MergeConflictTakesPrecedence(w: World, name: string, pull: Exec, status: Exec, pulled: Entry)
    requires IsGitRepository(w, name) && pull.Threw?
    requires IsInfix(MergeConflictPhrase, RunCommand(pull).stderr)
    ensures Update(w, name, pull, status, pulled).outcome.error == Some(MergeConflict)
    ensures Update(w, name, pull, status, pulled).outcome.message == UpdateMergeConflict
  {
  }
}

=== FILE: metadata.dfy ===
/**
 `getPluginMetadata`: the parsed `package.json` and the plugin's self-declared
 descriptor. Loading a module is an oracle (the directory's `modules` map);
 any load failure reads as "no descriptor" and never aborts the listing.
 */
module Metadata {
  import opened Wrappers
  import opened World

  datatype PluginMetadata = PluginMetadata(info: Option<Descriptor>, pkgJson: Option<Manifest>)

  const IndexJs: string := "index.js"
  const IndexMjs: string := "index.mjs"

  /** `require(<dir>/<path>).info || null`, where a throwing `require` also gives null. */
  function LoadInfo(e: Entry, path: string): (info: Option<Descriptor>)
    ensures e.Directory? && path in e.modules ==> info == e.modules[path]
    ensures !(e.Directory? && path in e.modules) ==> info == None
  {
    if e.Directory? && path in e.modules then e.modules[path] else None
  }

  /** `JSON.parse(readFile(<dir>/package.json))`, null when missing or unparsable. */
  function ReadPackageJson(e: Entry): (pkg: Option<Manifest>)
    ensures pkg.Some? <==> e.Directory? && e.manifestFile.Parsed?
    ensures pkg.Some? ==> pkg.value == e.manifestFile.manifest
  {
    if e.Directory? && e.manifestFile.Parsed? then Some(e.manifestFile.manifest) else None
  }

  /**
   The descriptor comes from the module `package.json`'s `main` names, when
   that field is set and the load yields one; otherwise from `index.js`. The
   `index.mjs` branch is a placeholder that never sets it.
   */
  function GetPluginMetadata(e: Entry): (m: PluginMetadata)
    ensures m.pkgJson == ReadPackageJson(e)
    ensures m.info.Some? ==> e.Directory? && m.info in e.modules.Values
  {
    var pkg := ReadPackageJson(e);
    var fromMain := if pkg.Some? && pkg.value.main != "" then LoadInfo(e, pkg.value.main) else None;
    var info := if fromMain.Some? then fromMain else LoadInfo(e, IndexJs);
    assert info.Some? ==> info in e.modules.Values by {
      if info.Some? {
        var p := if fromMain.Some? then pkg.value.main else IndexJs;
        assert e.modules[p] == info;
      }
    }
    PluginMetadata(info, pkg)
  }

  /** A descriptor loaded through `package.json`'s `main` wins over `index.js`. */
  lemma MainDescriptorWins(e: Entry)
    requires e.Directory? && e.manifestFile.Parsed?
    requires e.manifestFile.manifest.main != ""
    requires LoadInfo(e, e.manifestFile.manifest.main).Some?
    ensures GetPluginMetadata(e).info == LoadInfo(e, e.manifestFile.manifest.main)
  {
  }

  /**
   Without a usable `main` (no `package.json`, no `main`, a failed load, or a
   module exporting no `info`) the descriptor is whatever `index.js` yields.
   */
  lemma IndexDescriptorFallback(e: Entry)
    requires !(e.Directory? && e.manifestFile.Parsed? && e.manifestFile.manifest.main != ""
               && LoadInfo(e, e.manifestFile.manifest.main).Some?)
    ensures GetPluginMetadata(e).info == LoadInfo(e, IndexJs)
  {
  }

  /** `index.mjs` is never consulted unless `main` names it. */
  lemma MjsNeverConsulted(e: Entry)
    requires e.Directory?
    requires e.manifestFile.Parsed? ==> e.manifestFile.manifest.main != IndexMjs
    ensures GetPluginMetadata(e) == GetPluginMetadata(e.(modules := e.modules - {IndexMjs}))
  {
  }
}

=== FILE: naming.dfy ===
/**
 The directory name `installPlugin` derives from a git URL: Node's
 `path.basename(url, '.git')`, a second `.git` strip, then only the text after
 the last `:` (for `git@host:repo` style remotes).
 */
module Naming {
  import opened Strings

  const GitSuffix: string := ".git"

  /** `path.basename(p)` on POSIX: trailing separators are ignored. */
  function Basename(p: string): (r: string)
    ensures '/' !in r
    ensures IsSuffix(r, DropTrailing(p, '/'))
    ensures var d := DropTrailing(p, '/'); |r| < |d| ==> d[|d| - |r| - 1] == '/'
  {
    AfterLast(DropTrailing(p, '/'), '/')
  }

  /**
   The extension step of `path.basename(p, ext)`: `ext` is cut off the base
   name unless it is the whole base name.
   */
  function StripExtension(base: string, ext: string): (r: string)
    ensures IsPrefix(r, base)
    ensures IsSuffix(ext, base) && base != ext ==> r + ext == base
    ensures !IsSuffix(ext, base) || base == ext ==> r == base
  {
    if IsSuffix(ext, base) && base != ext then base[..|base| - |ext|] else base
  }

  /**
   `path.basename(p, ext)`, simplified: `ext` is cut from the last segment
   after trailing `/` are dropped. Node's own scan keeps the trailing `/`
   when the last segment is a proper ending of `ext` (`git/` for `.git`),
   and gives `''` when `p` is `ext` itself; neither case is followed here.
   */
  function BasenameWithoutExt(p: string, ext: string): string {
    StripExtension(Basename(p), ext)
  }

  /**
   The plugin directory name derived from `gitUrl` (index.js `installPlugin`).
   It is one path segment: it holds neither `/` nor `:`.
   */
  function DirNameFromUrl(gitUrl: string): (name: string)
    ensures '/' !in name
    ensures ':' !in name
  {
    var base := BasenameWithoutExt(gitUrl, GitSuffix);
    var trimmed := if IsSuffix(GitSuffix, base) then base[..|base| - |GitSuffix|] else base;
    assert forall ch | ch in trimmed :: ch in base;
    assert forall ch | ch in base :: ch in Basename(gitUrl);
    if ':' in trimmed then trimmed[LastIndexOf(trimmed, ':') + 1..] else trimmed
  }

  /** `https://host/group/<name>.git` and `ssh://…/<name>.git` install into `<name>`. */
  lemma DirNameOfPathUrl(prefix: string, name: string)
    requires '/' !in name && ':' !in name
    requires !IsSuffix(GitSuffix, name)
    ensures DirNameFromUrl(prefix + "/" + name + GitSuffix) == name
  {
    var url := prefix + "/" + name + GitSuffix;
    var seg := name + GitSuffix;
    assert url == prefix + ['/'] + seg;
    assert DropTrailing(url, '/') == url;
    AfterLastOfSeparated(prefix, '/', seg);
    assert Basename(url) == seg;
    assert seg[..|seg| - |GitSuffix|] == name;
    if name == "" {
      assert BasenameWithoutExt(url, GitSuffix) == GitSuffix;
    } else {
      assert BasenameWithoutExt(url, GitSuffix) == name;
    }
  }

  /** `git@host:<name>.git` (no `/` at all) installs into `<name>`. */
  lemma DirNameOfScpUrl(host: string, name: string)
    requires '/' !in host && '/' !in name && ':' !in name
    requires !IsSuffix(GitSuffix, name)
    ensures DirNameFromUrl(host + ":" + name + GitSuffix) == name
  {
    var stem := host + [':'] + name;
    ScpBasename(host, name);
    ColonStemNotSuffixed(host, name);
    AfterLastOfSeparated(host, ':', name);
  }

  /** `https://host/group/<name>` (no `.git` suffix) installs into `<name>`. */
  lemma DirNameOfBarePathUrl(prefix: string, name: string)
    requires '/' !in name && ':' !in name && name != ""
    requires !IsSuffix(GitSuffix, name)
    ensures DirNameFromUrl(prefix + "/" + name) == name
  {
    var url := prefix + "/" + name;
    assert url == prefix + ['/'] + name;
    assert url[|url| - 1] == name[|name| - 1];
    assert DropTrailing(url, '/') == url;
    AfterLastOfSeparated(prefix, '/', name);
    assert Basename(url) == name;
    assert BasenameWithoutExt(url, GitSuffix) == name;
  }

  /** `git@host:<name>` (no `/`, no `.git` suffix) installs into `<name>`. */
  lemma DirNameOfBareScpUrl(host: string, name: string)
    requires '/' !in host && '/' !in name && ':' !in name
    requires !IsSuffix(GitSuffix, name)
    ensures DirNameFromUrl(host + ":" + name) == name
  {
    var url := host + [':'] + name;
    assert host + ":" + name == url;
    assert '/' !in url;
    assert DropTrailing(url, '/') == url;
    AfterLastAbsent(url, '/');
    ColonStemNotSuffixed(host, name);
    assert BasenameWithoutExt(url, GitSuffix) == url;
    assert url[|host|] == ':';
    AfterLastOfSeparated(host, ':', name);
  }

  lemma ScpBasename(host: string, name: string)
    requires '/' !in host && '/' !in name
    ensures BasenameWithoutExt(host + ":" + name + GitSuffix, GitSuffix) == host + [':'] + name
  {
    var url := host + ":" + name + GitSuffix;
    var stem := host + [':'] + name;
    assert url == stem + GitSuffix;
    assert '/' !in url;
    assert DropTrailing(url, '/') == url;
    AfterLastAbsent(url, '/');
    assert url[..|url| - |GitSuffix|] == stem;
    assert url != GitSuffix by { assert url[|host|] == ':'; }
  }

  lemma ColonStemNotSuffixed(host: string, name: string)
    requires ':' !in name
    requires !IsSuffix(GitSuffix, name)
    ensures !IsSuffix(GitSuffix, host + [':'] + name)
  {
    var stem := host + [':'] + name;
    var k := |stem| - |GitSuffix|;
    if |stem| >= |GitSuffix| {
      if |name| >= |GitSuffix| {
        assert stem[k..] == name[|name| - |GitSuffix|..];
      } else {
        assert stem[k..][|GitSuffix| - |name| - 1] == ':';
      }
    }
  }

  /** The example from the catalog scenario. */
  lemma SamplePluginName()
    ensures DirNameFromUrl("https://example.com/group/sample-plugin.git") == "sample-plugin"
  {
    assert "https://example.com/group/sample-plugin.git"
        == "https://example.com/group" + "/" + "sample-plugin" + GitSuffix;
    DirNameOfPathUrl("https://example.com/group", "sample-plugin");
  }

  /** A doubled suffix is stripped twice: `<name>.git.git` installs into `<name>`. */
  lemma DoubledSuffixStrippedTwice(prefix: string, name: string)
    requires '/' !in name && ':' !in name
    requires !IsSuffix(GitSuffix, name)
    ensures DirNameFromUrl(prefix + "/" + name + GitSuffix + GitSuffix) == name
  {
    var url := prefix + "/" + name + GitSuffix + GitSuffix;
    var seg := name + GitSuffix + GitSuffix;
    assert url == prefix + ['/'] + seg;
    assert DropTrailing(url, '/') == url;
    AfterLastOfSeparated(prefix, '/', seg);
    assert Basename(url) == seg;
    assert seg[..|seg| - |GitSuffix|] == name + GitSuffix;
    assert BasenameWithoutExt(url, GitSuffix) == name + GitSuffix;
    assert (name + GitSuffix)[..|name|] == name;
  }
}

=== FILE: process.dfy ===
/**
 The command runner (`runCommand` in index.js). No command is ever run by the
 model: what `child_process.exec` reported is an input, and this module only
 models how that report is turned into a result that never throws.
 */
module Process {
  import opened Wrappers
  import opened Strings

  /** The command lines the engine issues, each scoped to the plugin directory `dir`. */
  datatype Command =
    | GitClone(url: string, dir: string)      // `git clone <url> "<dir>"`, run in the plugins directory
    | GitPull(dir: string)                    // `git pull`
    | GitStatusPackageJson(dir: string)       // `git status --porcelain package.json`
    | NpmInstall(dir: string)                 // `npm install`
    | GitRemoteGetUrl(dir: string)            // `git remote get-url origin`
    | GitStatusPorcelain(dir: string)         // `git status --porcelain`
    | GitFetchOrigin(dir: string)             // `git fetch origin`
    | GitLogIncoming(dir: string)             // `git log HEAD..origin/HEAD --oneline`

  /**
   What `exec` reports for one command line in one working directory: either
   it resolved (exit status 0) with the captured output, or it rejected with
   an error (non-zero exit, spawn failure, output over the buffer ceiling),
   whose `stdout`/`stderr` properties may be missing.
   */
  datatype Exec =
    | Exited(out: string, err: string)
    | Threw(errorMessage: string, errorStdout: Option<string>, errorStderr: Option<string>)

  /**
   `runCommand`'s result: `success`, `stdout` and `stderr` always present, and
   the error's message when the command failed.
   */
  datatype CommandResult =
    | Succeeded(stdout: string, stderr: string)
    | Failed(stdout: string, stderr: string, message: string)

  /** `runCommand(command, cwd)`: never throws; missing output reads as `''`. */
  function RunCommand(e: Exec): (r: CommandResult)
    ensures r.Succeeded? <==> e.Exited?
    ensures e.Exited? ==> r.stdout == e.out && r.stderr == e.err
    ensures e.Threw? ==> r.message == e.errorMessage
    ensures e.Threw? && e.errorStdout.Some? ==> r.stdout == e.errorStdout.value
    ensures e.Threw? && e.errorStderr.Some? ==> r.stderr == e.errorStderr.value
    ensures e.Threw? && e.errorStdout.None? ==> r.stdout == ""
    ensures e.Threw? && e.errorStderr.None? ==> r.stderr == ""
  {
    match e
    case Exited(out, err) => Succeeded(out, err)
    case Threw(m, out, err) => Failed(out.ValueOr(""), err.ValueOr(""), m)
  }

  /** `result.stderr || result.error?.message`: the diagnostic kept on a failure. */
  function Diagnostic(r: CommandResult): (d: string)
    requires r.Failed?
    ensures r.stderr != "" ==> d == r.stderr
    ensures r.stderr == "" ==> d == r.message
  {
    Or(r.stderr, r.message)
  }

  /** `result.success && result.stdout.trim() !== ''` */
  predicate SucceededWithOutput(r: CommandResult) {
    r.Succeeded? && Trim(r.stdout) != ""
  }

  /**
   A command reports output exactly when it succeeded and printed something
   other than white space.
   */
  lemma SucceededWithOutputIff(e: Exec)
    ensures SucceededWithOutput(RunCommand(e))
        <==> e.Exited? && exists i | 0 <= i < |e.out| :: !IsJsSpace(e.out[i])
  {
    var r := RunCommand(e);
    TrimNonEmptyIff(r.stdout);
  }
}

=== FILE: scenarios.dfy ===
/**
 End-to-end behaviour across the engine's operations: what the catalog shows
 after an install or a delete.
 */
module Scenarios {
  import opened Wrappers
  import opened Process
  import opened World
  import opened Naming
  import opened Lifecycle
  import opened Catalog
  import opened Metadata
  import opened Strings

  /**
   After a successful install of a git checkout (`git clone` creates a real
   directory, not a link), the next listing shows it as a git plugin (unless
   it was cloned into `node_modules`); with a clean `git status --porcelain`
   it shows no local changes.
   */
  lemma InstalledPluginIsListed(
    w: World, url: string, clone: Exec, cloned: Entry,
    order: seq<string>, probe: string -> GitProbe, le: (string, string) -> bool)
    requires clone.Exited? && !PathExists(w, DirNameFromUrl(url))
    requires IsGitCheckout(cloned) && !cloned.linked
    requires PluginId in w
    requires Enumerates(order, w[DirNameFromUrl(url) := cloned])
    requires TotalPreorder(le)
    ensures var name := DirNameFromUrl(url);
      var l := ListPlugins(Install(w, url, clone, cloned).world, order, probe, le);
      name != NodeModules ==>
        exists r | r in l.catalog :: r.dirName == name && r.isGit
          && (probe(name).status == Exited("", "") ==> !r.hasLocalChanges)
  {
    var name := DirNameFromUrl(url);
    if name == NodeModules {
      return;
    }
    var w' := Install(w, url, clone, cloned).world;
    InstalledEntry(w, url, clone, cloned);
    ListedRecord(w', order, probe, le, name);
    var r := RecordOf(w', probe, name);
    if probe(name).status == Exited("", "") {
      CleanStatusNoChanges(w', probe, name);
    }
    assert r in ListPlugins(w', order, probe, le).catalog && r.dirName == name && r.isGit;
  }

  lemma InstalledEntry(w: World, url: string, clone: Exec, cloned: Entry)
    requires clone.Exited? && !PathExists(w, DirNameFromUrl(url))
    ensures var s := Install(w, url, clone, cloned);
      DirNameFromUrl(url) in s.world && s.world[DirNameFromUrl(url)] == cloned
  {
  }

  lemma ListedRecord(w: World, order: seq<string>, probe: string -> GitProbe, le: (string, string) -> bool, name: string)
    requires Enumerates(order, w)
    requires TotalPreorder(le)
    requires name in w && IsListed(name, w[name])
    ensures RecordOf(w, probe, name) in ListPlugins(w, order, probe, le).catalog
  {
    assert name in ListedNames(w);
  }

  /** An empty, successful `git status --porcelain` means no local changes. */
  lemma CleanStatusNoChanges(w: World, probe: string -> GitProbe, name: string)
    requires name in w
    requires probe(name).status == Exited("", "")
    ensures !RecordOf(w, probe, name).hasLocalChanges
  {
    assert !SucceededWithOutput(RunCommand(probe(name).status));
  }

  /** After a successful delete, the listing has no record under that name. */
  lemma DeletedPluginIsNotListed(
    w: World, name: string, order: seq<string>, probe: string -> GitProbe, le: (string, string) -> bool)
    requires Delete(w, name, RemoveOk).outcome.success
    requires Enumerates(order, Delete(w, name, RemoveOk).world)
    requires TotalPreorder(le)
    ensures forall r | r in ListPlugins(Delete(w, name, RemoveOk).world, order, probe, le).catalog ::
      r.dirName != name
  {
    var w' := Delete(w, name, RemoveOk).world;
    assert name !in w';
    assert name !in ListedNames(w');
  }

  /** A failed install leaves the listing exactly as it was. */
  lemma FailedInstallKeepsListing(
    w: World, url: string, clone: Exec, cloned: Entry,
    order: seq<string>, probe: string -> GitProbe, le: (string, string) -> bool)
    requires clone.Threw? || PathExists(w, DirNameFromUrl(url))
    requires Enumerates(order, w)
    requires TotalPreorder(le)
    ensures Enumerates(order, Install(w, url, clone, cloned).world)
    ensures ListPlugins(Install(w, url, clone, cloned).world, order, probe, le) == ListPlugins(w, order, probe, le)
  {
    var name := DirNameFromUrl(url);
    if !PathExists(w, name) {
      assert clone.Threw?;
    }
  }

  /**
   Installing `https://example.com/group/sample-plugin.git` into a plugins
   directory that holds only the manager itself (an empty catalog) creates
   `sample-plugin`, and the next listing shows it as a git plugin without
   local changes when `git status --porcelain` is clean.
   */
  lemma SamplePluginScenario(
    manager: Entry, clone: Exec, cloned: Entry,
    order: seq<string>, probe: string -> GitProbe, le: (string, string) -> bool)
    requires clone.Exited? && IsGitCheckout(cloned) && !cloned.linked
    requires Enumerates(order, map[PluginId := manager, "sample-plugin" := cloned])
    requires TotalPreorder(le)
    requires probe("sample-plugin").status == Exited("", "")
    ensures var s := Install(map[PluginId := manager], SampleUrl, clone, cloned);
      && s.outcome.success
      && s.outcome.pluginDirName == Some("sample-plugin")
      && exists r | r in ListPlugins(s.world, order, probe, le).catalog ::
           r.dirName == "sample-plugin" && r.isGit && !r.hasLocalChanges
  {
    var w := map[PluginId := manager];
    SamplePluginName();
    SampleNameIsFree(manager);
    var s := Install(w, SampleUrl, clone, cloned);
    ListedRecord(s.world, order, probe, le, "sample-plugin");
    CleanStatusNoChanges(s.world, probe, "sample-plugin");
    assert RecordOf(s.world, probe, "sample-plugin") in ListPlugins(s.world, order, probe, le).catalog;
  }

  const SampleUrl: string := "https://example.com/group/sample-plugin.git"

  /** `sample-plugin` is neither the manager's own directory nor a name that resolves outside one. */
  lemma SampleNameIsFree(manager: Entry)
    ensures !PathExists(map[PluginId := manager], "sample-plugin")
  {
    var name := "sample-plugin";
    assert name[0] == 's' && PluginId[0] == 'p' && |name| > 2;
    assert name != PluginId;
  }

  /**
   A checkout reached through a symbolic link never appears in the listing,
   yet `updatePlugin` pulls it and `deletePlugin` removes it: both follow the
   link, where `readdir`'s entry types do not.
   */
  lemma LinkedCheckoutIsNotListed(
    w: World, name: string, order: seq<string>, probe: string -> GitProbe, le: (string, string) -> bool,
    pull: Exec, status: Exec, pulled: Entry)
    requires name in w && IsGitCheckout(w[name]) && w[name].linked
    requires Enumerates(order, w)
    requires TotalPreorder(le)
    ensures forall r | r in ListPlugins(w, order, probe, le).catalog :: r.dirName != name
    ensures Update(w, name, pull, status, pulled).effects[0] == Ran(GitPull(name))
    ensures name != PluginId ==> Delete(w, name, RemoveOk).outcome.success
  {
    assert name !in ListedNames(w);
  }

  /**
   After a successful `npm install` the next listing builds the plugin's
   record from the directory the install left, so a descriptor whose module
   only loads once its dependencies exist now shows up.
   */
  lemma DependencyInstallRefreshesRecord(
    w: World, name: string, npm: Exec, installed: Entry,
    order: seq<string>, probe: string -> GitProbe, le: (string, string) -> bool)
    requires HasPackageJsonAt(w, name) && npm.Exited?
    requires IsListed(name, installed)
    requires Enumerates(order, w)
    requires TotalPreorder(le)
    ensures var w' := InstallDependencies(w, name, npm, installed).world;
      && Enumerates(order, w')
      && RecordOf(w', probe, name) in ListPlugins(w', order, probe, le).catalog
      && RecordOf(w', probe, name) == BuildRecord(name, GetPluginMetadata(installed), Inspect(installed, probe(name)))
  {
    var w' := InstallDependencies(w, name, npm, installed).world;
    assert w'.Keys == w.Keys;
    ListedRecord(w', order, probe, le, name);
  }

  /**
   A pull refused because it would overwrite uncommitted edits reports the
   local-changes error and leaves every directory as it was.
   */
  lemma LocalChangesBlockUpdate(w: World, name: string, pull: Exec, status: Exec, pulled: Entry)
    requires IsGitRepository(w, name) && pull.Threw?
    requires IsInfix(LocalChangesPhrase, RunCommand(pull).stderr)
    requires !IsInfix(MergeConflictPhrase, RunCommand(pull).stderr)
    ensures var s := Update(w, name, pull, status, pulled);
      && !s.outcome.success
      && s.outcome.error == Some(LocalChanges)
      && s.outcome.message == UpdateLocalChanges
      && s.world == w
  {
  }
}

=== FILE: strings.dfy ===
/**
 The handful of JavaScript string operations the plugin manager relies on:
 `startsWith`/`endsWith`, `includes`, `lastIndexOf`, `trim`, and JavaScript's
 truthiness of strings (`a || b`).
 */
module Strings {

  predicate IsPrefix(p: string, s: string) {
    |p| <= |s| && s[..|p|] == p
  }

  /** `s.endsWith(p)` */
  predicate IsSuffix(p: string, s: string) {
    |p| <= |s| && s[|s| - |p|..] == p
  }

  /** `s.includes(t)` */
  predicate IsInfix(t: string, s: string) {
    exists i | 0 <= i <= |s| - |t| :: InfixAt(t, s, i)
  }

  /** `t` occurs in `s` starting at position `i`. */
  predicate InfixAt(t: string, s: string, i: int)
    requires 0 <= i <= |s| - |t|
  {
    s[i..i + |t|] == t
  }

  /** JavaScript's `a || b` on two strings: the empty string is falsy. */
  function Or(a: string, b: string): (r: string)
    ensures a != "" ==> r == a
    ensures a == "" ==> r == b
  {
    if a != "" then a else b
  }

  /** Every string contains the empty string (so an empty search term matches). */
  lemma EmptyIsInfix(s: string)
    ensures IsInfix("", s)
  {
    assert InfixAt("", s, 0);
  }

  /** `includes` is transitive: an infix of an infix is an infix. */
  lemma InfixTransitive(t: string, u: string, s: string)
    requires IsInfix(t, u) && IsInfix(u, s)
    ensures IsInfix(t, s)
  {
    var i :| 0 <= i <= |u| - |t| && InfixAt(t, u, i);
    var j :| 0 <= j <= |s| - |u| && InfixAt(u, s, j);
    forall k | 0 <= k < |t|
      ensures s[j + i + k] == t[k]
    {
      assert u[i..i + |t|][k] == t[k];
      assert s[j..j + |u|][i + k] == u[i + k];
    }
    assert s[j + i..j + i + |t|] == t;
    assert InfixAt(t, s, j + i);
  }

  /** Whatever occurs in either half of a concatenation occurs in the whole. */
  lemma InfixOfConcat(t: string, a: string, b: string)
    requires IsInfix(t, a) || IsInfix(t, b)
    ensures IsInfix(t, a + b)
  {
    assert (a + b)[..|a|] == a;
    assert InfixAt(a, a + b, 0);
    assert (a + b)[|a|..|a| + |b|] == b;
    assert InfixAt(b, a + b, |a|);
    if IsInfix(t, a) {
      InfixTransitive(t, a, a + b);
    } else {
      InfixTransitive(t, b, a + b);
    }
  }

  /**
   `s.lastIndexOf(c)`: the position of the last `c` in `s`, or -1 when there
   is none.
   */
  function LastIndexOf(s: string, c: char): (i: int)
    ensures -1 <= i < |s|
    ensures i == -1 <==> c !in s
    ensures 0 <= i ==> s[i] == c
    ensures forall j | i < j < |s| :: s[j] != c
  {
    if |s| == 0 then -1
    else if s[|s| - 1] == c then |s| - 1
    else LastIndexOf(s[..|s| - 1], c)
  }

  /** `s.substring(s.lastIndexOf(c) + 1)`: the longest suffix of `s` free of `c`. */
  function AfterLast(s: string, c: char): (r: string)
    ensures IsSuffix(r, s)
    ensures c !in r
    ensures |r| < |s| ==> s[|s| - |r| - 1] == c
  {
    s[LastIndexOf(s, c) + 1..]
  }

  /** Appending text free of `c` after a `c` makes that text the part after the last `c`. */
  lemma AfterLastOfSeparated(p: string, c: char, t: string)
    requires c !in t
    ensures AfterLast(p + [c] + t, c) == t
  {
    var s := p + [c] + t;
    assert s[|p|] == c;
    assert s[|s| - |t|..] == t;
  }

  /** A string with no `c` at all is its own part after the last `c`. */
  lemma AfterLastAbsent(s: string, c: char)
    requires c !in s
    ensures AfterLast(s, c) == s
  {
  }

  /** Removes every trailing `c` (path.basename ignores trailing separators). */
  function DropTrailing(s: string, c: char): (r: string)
    ensures IsPrefix(r, s)
    ensures r == [] || r[|r| - 1] != c
    ensures forall i | |r| <= i < |s| :: s[i] == c
  {
    if |s| > 0 && s[|s| - 1] == c then DropTrailing(s[..|s| - 1], c) else s
  }

  /** The characters `String.prototype.trim` removes: WhiteSpace and LineTerminator. */
  predicate IsJsSpace(ch: char) {
    || ch == '\t' || ch == '\n' || ch == '\U{0B}' || ch == '\U{0C}' || ch == '\r' || ch == ' '
    || ch == '\U{A0}' || ch == '\U{1680}' || ('\U{2000}' <= ch <= '\U{200A}')
    || ch == '\U{2028}' || ch == '\U{2029}' || ch == '\U{202F}' || ch == '\U{205F}'
    || ch == '\U{3000}' || ch == '\U{FEFF}'
  }

  /** The first position at or after `i` that is not white space, or `|s|`. */
  function SkipSpace(s: string, i: nat): (j: nat)
    requires i <= |s|
    ensures i <= j <= |s|
    ensures forall k | i <= k < j :: IsJsSpace(s[k])
    ensures j == |s| || !IsJsSpace(s[j])
    decreases |s| - i
  {
    if i < |s| && IsJsSpace(s[i]) then SkipSpace(s, i + 1) else i
  }

  /** The end of the text before `j` once trailing white space is dropped, never below `lo`. */
  function SkipSpaceBack(s: string, lo: nat, j: nat): (e: nat)
    requires lo <= j <= |s|
    ensures lo <= e <= j
    ensures forall k | e <= k < j :: IsJsSpace(s[k])
    ensures e == lo || !IsJsSpace(s[e - 1])
  {
    if lo < j && IsJsSpace(s[j - 1]) then SkipSpaceBack(s, lo, j - 1) else j
  }

  function TrimStart(s: string): (r: string)
    ensures IsSuffix(r, s)
    ensures r == [] || !IsJsSpace(r[0])
    ensures forall i | 0 <= i < |s| - |r| :: IsJsSpace(s[i])
  {
    s[SkipSpace(s, 0)..]
  }

  function TrimEnd(s: string): (r: string)
    ensures IsPrefix(r, s)
    ensures r == [] || !IsJsSpace(r[|r| - 1])
    ensures forall i | |r| <= i < |s| :: IsJsSpace(s[i])
  {
    s[..SkipSpaceBack(s, 0, |s|)]
  }

  /**
   `r` occurs in `s` at position `i` with nothing but white space before and
   after it.
   */
  predicate PaddedAt(r: string, s: string, i: int)
    requires 0 <= i <= |s| - |r|
  {
    && InfixAt(r, s, i)
    && (forall j | 0 <= j < i :: IsJsSpace(s[j]))
    && (forall j | i + |r| <= j < |s| :: IsJsSpace(s[j]))
  }

  /**
   `s.trim()`: the part of `s` left once the white space at both ends is
   removed, so it neither starts nor ends with white space itself.
   */
  function Trim(s: string): (r: string)
    ensures r == [] || (!IsJsSpace(r[0]) && !IsJsSpace(r[|r| - 1]))
    ensures exists i | 0 <= i <= |s| - |r| :: PaddedAt(r, s, i)
  {
    var i := SkipSpace(s, 0);
    var r := s[i..SkipSpaceBack(s, i, |s|)];
    assert PaddedAt(r, s, i);
    r
  }

  /** `trim()` is `trimEnd()` after `trimStart()`. */
  lemma TrimIsBothEnds(s: string)
    ensures Trim(s) == TrimEnd(TrimStart(s))
  {
  }

  /** `s.trim() !== ''` holds exactly when `s` has a character other than white space. */
  lemma TrimNonEmptyIff(s: string)
    ensures Trim(s) != "" <==> exists i | 0 <= i < |s| :: !IsJsSpace(s[i])
  {
    var i := SkipSpace(s, 0);
    if Trim(s) != "" {
      assert s[i] == Trim(s)[0];
    } else {
      assert SkipSpaceBack(s, i, |s|) == i;
    }
  }
}

=== FILE: timeago.dfy ===
/**
 `timeAgo` of public/script.js as a function of the elapsed milliseconds
 (`now - past`). JavaScript's `Math.floor(a / b)` with a positive divisor is
 Dafny's `a / b` (both round towards negative infinity), so the chain of
 floors is written with `/`.
 */
module RelativeTime {

  /** The label `timeAgo` produces, with its number. */
  datatype Ago =
    | JustNow
    | MinutesAgo(n: int)
    | HoursAgo(n: int)
    | DaysAgo(n: int)
    | MonthsAgo(n: int)
    | YearsAgo(n: int)
  {
    /** The bucket's position, finest first. */
    function Band(): nat {
      match this
      case JustNow => 0
      case MinutesAgo(_) => 1
      case HoursAgo(_) => 2
      case DaysAgo(_) => 3
      case MonthsAgo(_) => 4
      case YearsAgo(_) => 5
    }

    /** The rendered text: `刚刚`, `${n}分钟前`, `${n}小时前`, `${n}天前`, `${n}个月前`, `${n}年前`. */
    function Text(): string {
      match this
      case JustNow => "刚刚"
      case MinutesAgo(n) => Decimal(n) + "分钟前"
      case HoursAgo(n) => Decimal(n) + "小时前"
      case DaysAgo(n) => Decimal(n) + "天前"
      case MonthsAgo(n) => Decimal(n) + "个月前"
      case YearsAgo(n) => Decimal(n) + "年前"
    }
  }

  /** `${n}` for an integer. */
  function Decimal(n: int): string
    decreases if n < 0 then 1 - n else n
  {
    if n < 0 then "-" + Decimal(-n)
    else if n < 10 then ["0123456789"[n]]
    else Decimal(n / 10) + ["0123456789"[n % 10]]
  }

  const SecondsPerMinute: int := 60
  const SecondsPerHour: int := 60 * 60
  const SecondsPerDay: int := 60 * 60 * 24
  /** A month is taken as 30 days. */
  const SecondsPerMonth: int := 60 * 60 * 24 * 30
  /** ... and a year as 12 such months, 360 days. */
  const SecondsPerYear: int := 60 * 60 * 24 * 30 * 12

  /** `timeAgo`: successive floors, each compared with the next unit's size. */
  function TimeAgo(diffMs: int): (a: Ago)
    ensures a.JustNow? <==> diffMs / 1000 < 60
    ensures !a.JustNow? ==> a.n >= 1
    ensures a.MinutesAgo? ==> a.n <= 59
    ensures a.HoursAgo? ==> a.n <= 23
    ensures a.DaysAgo? ==> a.n <= 29
    ensures a.MonthsAgo? ==> a.n <= 11
  {
    var seconds := diffMs / 1000;
    if seconds < 60 then JustNow
    else
      var minutes := seconds / 60;
      if minutes < 60 then MinutesAgo(minutes)
      else
        var hours := minutes / 60;
        if hours < 24 then HoursAgo(hours)
        else
          var days := hours / 24;
          if days < 30 then DaysAgo(days)
          else
            var months := days / 30;
            if months < 12 then MonthsAgo(months)
            else YearsAgo(months / 12)
  }

  /**
   The same buckets stated directly on the elapsed seconds: each bucket is a
   range of seconds and its number is one division by the unit's length.
   */
  function Bucket(seconds: int): Ago {
    if seconds < SecondsPerMinute then JustNow
    else if seconds < SecondsPerHour then MinutesAgo(seconds / SecondsPerMinute)
    else if seconds < SecondsPerDay then HoursAgo(seconds / SecondsPerHour)
    else if seconds < SecondsPerMonth then DaysAgo(seconds / SecondsPerDay)
    else if seconds < SecondsPerYear then MonthsAgo(seconds / SecondsPerMonth)
    else YearsAgo(seconds / SecondsPerYear)
  }

  /**
   `timeAgo`'s chain of floors agrees with the direct bucket of the elapsed
   seconds: the minutes threshold is 60 s, hours 3600 s, days 86400 s, months
   30 days, years 360 days.
   */
  lemma TimeAgoIsBucket(diffMs: int)
    ensures TimeAgo(diffMs) == Bucket(diffMs / 1000)
  {
  }

  /** An older timestamp never gets a finer or smaller label. */
  lemma TimeAgoMonotone(ms1: int, ms2: int)
    requires ms1 <= ms2
    ensures var a, b := TimeAgo(ms1), TimeAgo(ms2);
      a.Band() < b.Band() || (a.Band() == b.Band() && (a.JustNow? || a.n <= b.n))
  {
  }

  /** Timestamps in the future read as just now. */
  lemma FutureIsJustNow(diffMs: int)
    requires diffMs < 0
    ensures TimeAgo(diffMs) == JustNow
  {
  }
}

=== FILE: view.dfy ===
/**
 The decisions public/script.js makes when it renders the catalog
 (`renderPluginList`) and when the search box changes (`filterPlugins`):
 which badges and buttons a card gets, and which cards stay visible. The DOM
 itself is not modelled; `toLowerCase` is an abstract `lower` function.
 */
module View {
  import opened Wrappers
  import opened Strings
  import opened Catalog

  datatype Badge = GitBadge | UpdateBadge | LocalChangesBadge | DependencyBadge(count: nat)

  /** The footer buttons, in order. */
  datatype Action = UpdateButton(disabled: bool) | InstallDepsButton | DeleteButton

  /** What one card shows, and its `data-plugin-search` text. */
  datatype Card = Card(
    dirName: string,
    search: string,
    badges: seq<Badge>,
    versionBadge: Option<string>,
    descriptionText: string,
    actions: seq<Action>)

  datatype PluginListView = EmptyState | Cards(cards: seq<Card>)

  /**
   The status badges: Git for a checkout, an update badge when commits are
   waiting, a changes badge for local edits, and a dependency count only when
   `package.json` exists and lists dependencies.
   */
  function Badges(p: PluginRecord): (b: seq<Badge>)
    ensures GitBadge in b <==> p.isGit
    ensures UpdateBadge in b <==> p.needsPull
    ensures LocalChangesBadge in b <==> p.hasLocalChanges
    ensures DependencyBadge(|p.dependencies|) in b <==> p.hasPackageJson && |p.dependencies| > 0
    ensures forall k: nat | DependencyBadge(k) in b :: k == |p.dependencies|
  {
    (if p.isGit then [GitBadge] else [])
    + (if p.needsPull then [UpdateBadge] else [])
    + (if p.hasLocalChanges then [LocalChangesBadge] else [])
    + (if p.hasPackageJson && |p.dependencies| > 0 then [DependencyBadge(|p.dependencies|)] else [])
  }

  /**
   The footer: an update button only for git plugins, disabled exactly when
   no commits are waiting; a dependency button when `package.json` exists;
   the delete button always, last.
   */
  function Actions(p: PluginRecord): (a: seq<Action>)
    ensures p.isGit ==> UpdateButton(!p.needsPull) in a
    ensures forall d | UpdateButton(d) in a :: p.isGit && (d <==> !p.needsPull)
    ensures InstallDepsButton in a <==> p.hasPackageJson
    ensures |a| > 0 && a[|a| - 1] == DeleteButton
  {
    (if p.isGit then [UpdateButton(!p.needsPull)] else [])
    + (if p.hasPackageJson then [InstallDepsButton] else [])
    + [DeleteButton]
  }

  /** `(plugin.name + ' ' + plugin.description).toLowerCase()` */
  function SearchText(p: PluginRecord, lower: string -> string): string {
    lower(p.name + " " + p.description)
  }

  /** One card: the plugin's badges, buttons and search text, and its version and description. */
  function RenderCard(p: PluginRecord, lower: string -> string): (c: Card)
    ensures c.dirName == p.dirName
    ensures c.search == SearchText(p, lower)
    ensures c.versionBadge.Some? <==> p.version != ""
    ensures c.versionBadge.Some? ==> c.versionBadge.value == "v" + p.version
    ensures p.description != "" ==> c.descriptionText == p.description
    ensures p.description == "" ==> c.descriptionText == "无描述"
  {
    Card(
      p.dirName,
      SearchText(p, lower),
      Badges(p),
      if p.version != "" then Some("v" + p.version) else None,
      Or(p.description, "无描述"),
      Actions(p))
  }

  /**
   `renderPluginList(plugins)`: the empty-state placeholder for an empty
   catalog, otherwise one card per plugin in catalog order.
   */
  function RenderPluginList(plugins: seq<PluginRecord>, lower: string -> string): (v: PluginListView)
    ensures v.EmptyState? <==> |plugins| == 0
    ensures v.Cards? ==> |v.cards| == |plugins|
    ensures v.Cards? ==> forall i | 0 <= i < |plugins| :: v.cards[i] == RenderCard(plugins[i], lower)
  {
    if |plugins| == 0 then EmptyState
    else Cards(seq(|plugins|, i requires 0 <= i < |plugins| => RenderCard(plugins[i], lower)))
  }

  /** A card stays visible when its search text contains the lowercased term. */
  predicate Visible(c: Card, term: string, lower: string -> string) {
    IsInfix(lower(term), c.search)
  }

  /** `filterPlugins()`: the visibility of every card, in order. */
  method FilterPlugins(cards: seq<Card>, term: string, lower: string -> string) returns (shown: seq<bool>)
    ensures |shown| == |cards|
    ensures forall i | 0 <= i < |cards| :: shown[i] <==> IsInfix(lower(term), cards[i].search)
  {
    var needle := lower(term);
    shown := [];
    var i := 0;
    while i < |cards|
      invariant 0 <= i <= |cards|
      invariant |shown| == i
      invariant forall k | 0 <= k < i :: shown[k] <==> IsInfix(needle, cards[k].search)
    {
      shown := shown + [IsInfix(needle, cards[i].search)];
      i := i + 1;
    }
  }

  /** An empty search term (which lowercases to itself) shows every card. */
  lemma EmptyTermShowsAll(cards: seq<Card>, lower: string -> string)
    requires lower("") == ""
    ensures forall i | 0 <= i < |cards| :: Visible(cards[i], "", lower)
  {
    forall i | 0 <= i < |cards| ensures Visible(cards[i], "", lower) {
      EmptyIsInfix(cards[i].search);
    }
  }

  /**
   Narrowing the search only hides cards: a card visible for a term stays
   visible for any term whose lowercase form occurs in that term's.
   */
  lemma NarrowingOnlyHides(c: Card, wide: string, narrow: string, lower: string -> string)
    requires IsInfix(lower(wide), lower(narrow))
    requires Visible(c, narrow, lower)
    ensures Visible(c, wide, lower)
  {
    InfixTransitive(lower(wide), lower(narrow), c.search);
  }

  /**
   Lowercasing two texts joined by a space lowercases each text on its own.
   `toLowerCase` meets this: its only context-dependent rule (final sigma)
   looks at the neighbouring letters, and a space ends that context.
   */
  ghost predicate LowerSplitsAtSpace(lower: string -> string) {
    forall a: string, b: string :: lower(a + " " + b) == lower(a) + " " + lower(b)
  }

  /** A card is found by any term whose lowercase form occurs in its plugin's lowercased name. */
  lemma NameFindsCard(p: PluginRecord, term: string, lower: string -> string)
    requires LowerSplitsAtSpace(lower)
    requires IsInfix(lower(term), lower(p.name))
    ensures Visible(RenderCard(p, lower), term, lower)
  {
    assert lower(p.name + " " + p.description) == lower(p.name) + " " + lower(p.description);
    assert lower(p.name) + " " + lower(p.description) == lower(p.name) + (" " + lower(p.description));
    InfixOfConcat(lower(term), lower(p.name), " " + lower(p.description));
  }

  /** ... and by any term occurring in its lowercased description. */
  lemma DescriptionFindsCard(p: PluginRecord, term: string, lower: string -> string)
    requires LowerSplitsAtSpace(lower)
    requires IsInfix(lower(term), lower(p.description))
    ensures Visible(RenderCard(p, lower), term, lower)
  {
    assert lower(p.name + " " + p.description) == lower(p.name) + " " + lower(p.description);
    InfixOfConcat(lower(term), lower(p.name) + " ", lower(p.description));
  }
}

=== FILE: world.dfy ===
/**
 The abstract plugins directory the engine works on: a map from entry names
 to entries. A directory records what the engine ever looks at inside it:
 what `.git` is, the state of `package.json`, and which module files
 `require` can load and what descriptor (`info` export) each one yields.
 */
module World {
  import opened Wrappers

  /** The manager's own directory name (its `info.id`). */
  const PluginId: string := "plugin-manager"

  /** The dependency cache directory that is never listed. */
  const NodeModules: string := "node_modules"

  /** What `<dir>/.git` is, after following links. */
  datatype GitMarker = NoGitEntry | GitFile | GitDirectory

  /** The parts of a parsed `package.json` the engine reads; `''` is a missing field. */
  datatype Manifest = Manifest(
    main: string,
    version: string,
    dependencies: Option<seq<string>>,
    devDependencies: Option<seq<string>>)

  /**
   `package.json` is missing; or reading or parsing it fails, or it parses to
   a falsy value (`null`, `0`, `false`, `""`), so the manifest is null; or it
   parses to a truthy value. A truthy value that is not an object (`[]`, `1`,
   `"x"`) is a `Parsed` manifest with every field missing.
   */
  datatype ManifestFile = NoManifestFile | Unparsable | Parsed(manifest: Manifest)

  /** A plugin's self-declared `info` export; `''` is a missing (falsy) field. */
  datatype Descriptor = Descriptor(id: string, name: string, description: string, version: string)

  /**
   An entry of the plugins directory. `modules` maps a module path, relative
   to the plugin directory, to what loading it yields: the module's `info`
   (None when it exports none). A path outside the map fails to load.
   `linked` marks a directory reached through a symbolic link: `fs.stat`,
   `fs.access`, `readFile` and `require` follow the link, the `Dirent` of
   `readdir` does not.
   */
  datatype Entry =
    | File
    | Directory(
        git: GitMarker,
        manifestFile: ManifestFile,
        modules: map<string, Option<Descriptor>>,
        linked: bool)

  type World = map<string, Entry>

  /** `isGitRepository`: `.git` exists and is a directory (a `.git` file does not count). */
  predicate IsGitCheckout(e: Entry) {
    e.Directory? && e.git.GitDirectory?
  }

  /** `isGitRepository(path.join(PLUGINS_DIR, name))`; a missing entry is not a checkout. */
  predicate IsGitRepository(w: World, name: string) {
    name in w && IsGitCheckout(w[name])
  }

  /** `fs.access(<dir>/package.json)` succeeds: the file exists, parsable or not. */
  predicate HasPackageJson(e: Entry) {
    e.Directory? && !e.manifestFile.NoManifestFile?
  }

  /** `path.join(PLUGINS_DIR, name)` is the plugins directory itself or its parent. */
  predicate JoinsAboveEntries(name: string) {
    name == "" || name == "." || name == ".."
  }

  /** A name `readdir` can report: one path segment naming an entry. */
  predicate IsSegment(name: string) {
    '/' !in name && !JoinsAboveEntries(name)
  }

  /** Every key of the directory map is a single segment. */
  predicate SegmentNames(w: World) {
    forall n | n in w :: IsSegment(n)
  }

  /**
   `fs.access(path.join(PLUGINS_DIR, name))` succeeds: an existing entry, or a
   name that joins to the plugins directory itself or to its parent.
   */
  predicate PathExists(w: World, name: string) {
    name in w || JoinsAboveEntries(name)
  }

  /**
   `listInstalledPlugins` keeps real directories (`Dirent.isDirectory()` is
   false for a symbolic link) other than its own and `node_modules`.
   */
  predicate IsListed(name: string, e: Entry) {
    e.Directory? && !e.linked && name != PluginId && name != NodeModules
  }

  /** The names a catalog listing covers. */
  function ListedNames(w: World): set<string> {
    set n | n in w && IsListed(n, w[n])
  }
}

=== FILE: wrappers.dfy ===
/** Optional values, standing in for JavaScript's `null` / `undefined`. */
module Wrappers {

  datatype Option<+T> = None | Some(value: T) {

    /** The carried value, or `fallback` for a missing one (`x ?? fallback`). */
    function ValueOr(fallback: T): T {
      if Some? then value else fallback
    }
  }
}
